=== FILE: README.md ===
# Archerfish simulation core in Dafny

This project models the per-tick simulation of *archerfish*. The game is a
single-screen arcade game. A fish at the bottom of the screen spits water
bullets into a pseudo-3D scene. The bullets hit enemies that walk along three
scaffold lanes, and the player has a 60-second round to score. The model
covers five parts:

- the perspective camera that maps camera space to screen space and back;
- the one-tick physics of bullets, splashes, enemies (Normal, Dizzy, Shy) and
  floating score ("gain") effects;
- the spawner, the per-tick pruning pipeline, and the ordered first-match
  sphere collision pass that scores hits;
- the aim clamp and the bullet built from a drag;
- the mode machine Title → Playing → GameOver → Ranking/Title, with its
  180-tick lead-in, 3600-tick round clock and 60-tick cool-down.

Coordinates are Dafny `real`, an exact idealisation of Go's `float64`. The
round's generator is an explicit stream of 63-bit draws with a cursor
(`Oracles.Rng`). Go's `Int` and `Float64` each consume exactly one draw.
cos(πu) and sin(πu) are an oracle parameter (`Oracles.Trig`). Everything
else the simulation needs from outside comes in per tick as a parameter:

- the touch events (`Archerfish.Input`);
- the result of the non-blocking ranking receive;
- the generator a restart would seed (`Archerfish.Env`).

Module layout, leaf first:

- `Wrappers`: `Option`.
- `Seqs`: order-preserving map and filter.
- `Projection`: the camera.
- `Oracles`: the generator and the trigonometric oracle.
- `Entities`: the entity datatypes and their one-tick updates.
- `Timelines`: closed forms over many ticks.
- `Aim`: the aim clamp and bullet construction.
- `Spawner`: enemy spawning.
- `Collision`: the hit test and scoring.
- `Pipeline`: the per-tick entity pass.
- `Archerfish`: the game state and `Step`.
- `Rules`: the mode-machine properties.

Notes on reading the source:

- The enemy screen-bounds test at main.go:625 joins its two comparisons with
  `||`, so it holds for every enemy. It is modelled as written
  (`Pipeline.OnScreenAsWritten`). `Pipeline.UpdateEnemies` proves that
  enemies are pruned only by the water line. The test was evidently meant to
  drop enemies that walked more than 50 pixels past either screen edge
  (`&&`); as written it never drops any, and the model follows the code.
- `newBulletByTouchPosition` computes r·cos(atan2(dy, dx)) with
  r = 40·d/(480 − fishY). Over the reals this equals 40·dx/120, and it is 0
  when d = 0 because atan2(0, 0) = 0. `Aim.NewBullet` is written in that
  form, so the shot needs no transcendental functions.
- A ranking that was received and turned out empty leads to a restart, just
  as when nothing was received. After a failed fetch the goroutine closes the
  channel, and a receive on the closed channel yields an empty ranking. So
  the poll input is `Some([])` in that case and `None` while nothing is
  ready.

## Model

| member | source | states |
|---|---|---|
| `Projection.ToScreen` | main.go:63-67 | projecting a camera point at depth z > 0 and un-projecting it at the same depth gives the camera point back exactly |
| `Projection.ScreenCameraRoundTrip` | main.go:69-73 | un-projecting a screen point at depth z > 0 and projecting it again gives the same screen point |
| `Projection.FishScreenPosition` | main.go:63-66 | the fish (camera origin at the focal depth 50) appears at screen (320, 360), so fishY is 360 |
| `Oracles.NextInt` | main.go:521 | `rand.Int()` yields a value in [0, 2^63) and consumes exactly one draw |
| `Oracles.NextFloat` | main.go:519 | `rand.Float64()` yields a value in [0, 1) and consumes exactly one draw |
| `Seqs.FilterConcat` | main.go:587-598 | the pruning loops keep the survivors in their original order: filtering distributes over concatenation, and one element is kept exactly when it passes |
| `Entities.UpdateBullet` | main.go:158-166 | vz and vx are unchanged; z grows by exactly vz and x by vx; vy grows by gravity 0.5 before y moves by the new vy; the age grows by one |
| `Entities.UpdateSplash` | main.go:184-191 | the same gravity step in x and y only; the depth z never changes |
| `Entities.PatrolVelocity` | main.go:231-246 | a not-hit enemy's velocity changes only on a Dizzy beat with an even coin (toggling between 0 and vx0) or on a Shy enemy's ticks 120 (to 0) and 240 (to −vx0) |
| `Entities.UpdateEnemy` | main.go:218-249 | vx0 takes vx on the first update and is fixed after it; a hit enemy keeps x and vx and only falls; a not-hit enemy keeps y and moves x by its new vx; the hit flag is never changed; one draw is consumed exactly on a Dizzy beat |
| `Entities.UpdateGain` | main.go:328-334 | the age grows by one, y0 is captured on the first update, and y sits 30·sin(π·age/60) above y0 |
| `Timelines.BulletClosedForm` | main.go:158-166 | after n ticks a bullet has x + n·vx, z + n·vz, vy + n·g and y + n·vy + g·n(n+1)/2 |
| `Timelines.BulletDepthIncreases` | main.go:158-166 | with vz > 0 a bullet is strictly deeper at every later tick |
| `Timelines.SplashClosedForm` | main.go:184-191 | after n ticks a splash has x + n·vx, the same z, vy + n·g and y + n·vy + g·n(n+1)/2 |
| `Timelines.HitEnemyFalls` | main.go:225-229 | a hit enemy stays hit, keeps its x, draws nothing and falls along the gravity parabola |
| `Timelines.NormalTimeline` | main.go:231-248 | a not-hit Normal enemy keeps its spawn velocity and walks x + n·vx |
| `Timelines.ShyTimeline` | main.go:218-248 | a fresh not-hit Shy enemy: vx0 equals the spawn vx after the first tick; vx is the spawn vx for ticks 1-119, 0 for ticks 120-239 and −vx0 from tick 240; x is the matching sum; no draws |
| `Timelines.DizzyStep` | main.go:232-239 | a not-hit Dizzy enemy changes vx only on a tick with ticks % 60 == 0 whose draw is even; on such a tick vx toggles between 0 and vx0; vx stays in {0, vx0} |
| `Timelines.DizzyTimeline` | main.go:218-239 | a fresh not-hit Dizzy enemy always has vx in {0, spawn vx}; after n ticks it has used exactly n / 60 draws |
| `Timelines.GainArcTimeline` | main.go:328-334 | after n ≥ 1 updates a fresh gain effect has age n, keeps x and its points, and sits 30·sin(πn/60) above its creation height |
| `Aim.HoldPosition` | main.go:730-749 | the result always satisfies 0 ≤ x ≤ 640 and 360 ≤ y ≤ 480; a coordinate already in range is unchanged; each out-of-range side is clamped to its own bound |
| `Aim.NearFish` | main.go:466-472 | a press starts aiming when its squared distance from the fish's screen position is strictly below 50² |
| `Aim.NearFishBox` | main.go:469-472 | every press that starts aiming lies strictly inside the box 270 < x < 370, 310 < y < 410 around the fish |
| `Aim.NewBullet` | main.go:751-767 | the bullet starts at the fish with vz = 3 and radius 10; its (vx, vy) points from the touch through the fish; its speed is 40/120 of the drag distance |
| `Aim.StraightDownShot` | main.go:751-767 | releasing at (320, 480), straight below the fish at the bottom edge, gives vx = 0 and vy = −40 |
| `Aim.ShotRiseBound` | main.go:735-763 | for every release point the shot never goes down (vy ≤ 0) and never rises faster than 40; it rises at exactly 40 if and only if the release is at or below the bottom edge |
| `Aim.FiredBulletRecedes` | main.go:758-766 | a fired bullet is at depth 50 + 3n after n ticks, so its depth strictly increases every tick |
| `Spawner.NewEnemy` | main.go:520-555 | a spawned enemy is fresh and not hit at depth 200; its projection is its lane's entry point (−50 or 690, lane y); its vx points inward with the kind's speed |
| `Spawner.TrySpawn` | main.go:519-556 | an enemy is appended exactly when the uniform draw is below the row's probability; it is the new enemy of the row's kind and speed whose side (left or right lane end) is the parity of the second draw; one draw is used, plus one more for the side when the enemy spawns |
| `Spawner.SpawnAll` | main.go:498-557 | the table rows run in order, each from the enemies and generator the previous rows left (the returned stages): row k appends an enemy exactly when its own uniform draw is below its probability; old enemies are kept as a prefix; every new enemy is fresh, heading inward, and made by some row (its kind and speed); when the table lists kinds in rank order, so do the new enemies, hence at most one per kind; one draw per row plus one per spawned enemy |
| `Spawner.Spawn` | main.go:496-558 | the spawn beat runs the three rows in order, each from the stage the previous row left, keeps the old enemies and appends at most three: at most one Normal, then at most one Dizzy, then at most one Shy, each with its table speed; it uses three draws plus one per spawned enemy |
| `Spawner.SpawnRow` | main.go:518-556 | at row k of the spawn beat the enemies so far stay a prefix; an enemy is appended if and only if that row's draw is below its probability, and it is the row's new enemy on the side the next draw's parity picks; otherwise the row used exactly one draw |
| `Collision.KindScore` | main.go:653-661 | a hit on a Normal enemy scores 1, on a Dizzy enemy 3 and on a Shy enemy 5, and no other kind scores those values |
| `Collision.FirstTarget` | main.go:647-649 | returns the first enemy in list order that is not hit and overlaps strictly (squared distance < squared radius sum); none exactly when no enemy qualifies |
| `Collision.GainAt` | main.go:662-667 | a hit's gain effect is new, shows the kind's points and sits at the enemy's projected screen position |
| `Collision.MarkHitCounts` | main.go:650-669 | marking one un-hit enemy adds exactly one hit and exactly that kind's points |
| `Collision.Strike` | main.go:645-675 | a bullet hits if and only if some un-hit enemy overlaps it; then exactly the first such enemy gets its hit flag set, and no other enemy changes; a miss changes nothing |
| `Collision.Collide` | main.go:643-680 | bullets strike in list order, each against the enemies the previous strikes left (the returned stages); the survivors are exactly the bullets whose own strike missed, in their original order; the gain effects are exactly those of the strikes that hit, each at its target's projected position with its kind score, in bullet order; only hit flags change, from false to true; every bullet either survives or yields exactly one gain effect; the points equal the new hits' kind scores and the total shown by the gain effects |
| `Collision.StaysUnhittable` | main.go:649 | an enemy that is not hittable by a bullet does not become hittable later in the pass |
| `Collision.MissesSurvive` | main.go:676-678 | a bullet that overlaps no un-hit enemy at the start of the pass stays in the bullet list |
| `Collision.LoneBullet` | main.go:643-680 | a single bullet is removed if and only if it overlaps an un-hit enemy; then exactly one enemy is newly hit and one gain effect appears |
| `Pipeline.Burst` | main.go:484-493 | a burst is n splashes at the given point with age 0, using exactly two draws per splash |
| `Pipeline.Splashdowns` | main.go:570-580 | each drowned bullet leaves five surface splashes (y = 0), using ten draws |
| `Pipeline.UpdateBullets` | main.go:564-585 | the survivors are exactly the updated bullets with y ≤ 0, in their original order (this order decides which bullet scores a contested enemy); every removed bullet leaves five surface splashes |
| `Pipeline.UpdateSplashes` | main.go:587-598 | the survivors are exactly the updated splashes with y ≤ 100 |
| `Pipeline.OnScreenAlways` | main.go:624-627 | the screen-bounds test as written holds for every enemy |
| `Pipeline.OnScreenAsWritten` | main.go:623-625 | the screen test as written: the projected x is above −50 or below 690 |
| `Pipeline.EnemyTurn` | main.go:602-620 | one enemy's turn is its `Update` and, when it ends under the water, a burst of five surface splashes; the generator is left where the turn description says |
| `Pipeline.EnemyTurns` | main.go:600-620 | the turns of all enemies in order: each enemy is updated with the generator the previous turns left; there are five surface splashes per enemy that went under |
| `Pipeline.KeepOnScreen` | main.go:606-628 | keeping the updated enemies that are above the water and pass the screen test gives exactly the enemies above the water, in order |
| `Pipeline.UpdateEnemies` | main.go:600-629 | enemy i is updated with the generator left by the turns of enemies 0..i−1 (their coins and the ten draws of each burst); the kept list is exactly the updated enemies with y ≤ 0, in order, so the screen test removes none; each drowned enemy leaves five surface splashes |
| `Pipeline.CollisionKeepsHeight` | main.go:643-680 | the collision pass lifts no enemy and brings back no bullet: what was at or below the water's surface stays there |
| `Pipeline.AdvanceKeepsMisses` | main.go:643-680 | a moved bullet that overlaps no un-hit enemy entering the collision pass is still in play after the entity pass |
| `Pipeline.UpdateGains` | main.go:631-640 | the survivors are exactly the updated gain effects younger than 60 ticks |
| `Pipeline.Advance` | main.go:560-680 | the collision pass runs over the surviving bullets and enemies of this tick; the splashes are the aged old ones and the bullets' new bursts, pruned, followed by the drowned enemies' bursts; the points are the kind scores of the enemies it newly marked hit and also the total shown by the new gain effects, which are appended after the aged old ones; after the pass every bullet and enemy has y ≤ 0, every splash y ≤ 100 and every gain effect is younger than 60 ticks |
| `Archerfish.Initialize` | main.go:1041-1076 | a restart gives Title with a zero mode counter, score 0, empty field, no ranking and the new generator; it satisfies the reachable-state invariant |
| `Archerfish.SetNextMode` | main.go:1017-1020 | changing mode sets the mode, restarts its counter and changes nothing else |
| `Archerfish.Fire` | main.go:475-494 | a release appends the bullet built from the clamped hold position and five splashes of age 0 at the fish's mouth (x 0, y −h/2, fish depth), keeping the old ones as prefixes and using ten draws |
| `Archerfish.HandleTouch` | main.go:466-494 | aiming holds after the tick if and only if it was on or began now and there was no release; a release while aiming is exactly `Fire` on the field and generator, and otherwise field and generator are unchanged |
| `Archerfish.SpawnPhase` | main.go:496-558 | off the 60-tick beat nothing changes; on it the enemies and the generator are those of `Spawner.Spawn`, and only the enemies (old ones kept as a prefix, at most three appended) and the generator (three draws plus one per new enemy) change |
| `Archerfish.Clocked` | main.go:456-464 | the round clock advances by one exactly when the mode counter is past 180, and nothing else changes |
| `Archerfish.TickPhases` | main.go:456-680 | a Playing tick's phases run in order, each on the game the previous left: touch handling on the clocked game, the spawn beat, then the entity pass; the touch and spawn phases change only the hold flag, the field and the generator, and they leave the gain effects alone |
| `Archerfish.PlayingStep` | main.go:447-703 | the field and generator after the tick are those of the entity pass that follows the touch and spawn phases, and the score rises by that pass's points; the round clock advances only after tick 180; the tick ends in GameOver if and only if the clock reached 3600, and then the counter is reset and a ranking requested; the score rises by exactly the points of the gain effects this tick's hits created, which follow the aged old ones; the field is pruned |
| `Archerfish.Counted` | main.go:411 | every tick first advances the mode counter by one and changes nothing else |
| `Archerfish.Step` | main.go:408-728 | one tick keeps every enemy in front of the camera, so ticks can be chained |
| `Archerfish.Polled` | main.go:706-710 | a ranking is taken from the poll only when one was requested and has arrived; otherwise the stored ranking stays |
| `Rules.StepModeClock` | main.go:1016-1019 | the mode counter is 0 after every mode change and grows by one otherwise |
| `Rules.TitleRule` | main.go:437-446 | Title goes to Playing if and only if a press happened; apart from the mode and its counter the game is unchanged (field, score, clock, hold flag, generator and every other field) |
| `Rules.PlayingRule` | main.go:456-703 | Playing goes only to GameOver, and if and only if the clock reached 3600; the clock stays put during the lead-in and never decreases; the score does not drop; the field is pruned |
| `Rules.GameOverRule` | main.go:704-719 | GameOver is left if and only if more than 60 ticks have passed and there is a press; it goes to Ranking if and only if the polled ranking is non-empty, and otherwise to a full restart |
| `Rules.RankingRule` | main.go:720-724 | Ranking restarts if and only if the ranking is empty, or more than 60 ticks have passed and there is a press |
| `Rules.ScoreNeverDecreases` | main.go:669 | the score never decreases except through a restart from GameOver or Ranking, which sets it to 0 |
| `Rules.StepPreservesInv` | main.go:408-728 | the reachable-state invariant is kept by every tick (enemies in front of the camera, the round clock equal to max(0, counter − 180) while Playing, exactly 3600 in GameOver, a non-empty ranking in Ranking) |
| `Rules.PlayingScoresHits` | main.go:456-680 | in a Playing tick only the enemies the collision pass newly marks hit change, and the score rises by exactly their kind scores |
| `Rules.TickScoresHits` | main.go:408-680 | the same for a whole step from Playing: the enemies after the tick are those entering the collision pass with only new hit flags, and the score rises by their kind scores |
| `Rules.MissedBulletStays` | main.go:408-680 | in a step from Playing, a moved bullet that overlaps no un-hit enemy entering the collision pass is still in play after the tick |
| `Rules.PlayingPreservesInv` | main.go:456-703 | a Playing tick from a reachable state reaches a reachable state: while Playing the clock stays max(0, counter − 180) below 3600, and GameOver comes with the clock at exactly 3600 and a ranking requested |
| `Rules.RoundLength` | main.go:456-688 | from a reachable Playing state, GameOver comes exactly on the mode's 3780th tick |
| `Rules.Run` | main.go:408-728 | every state reached by a sequence of ticks satisfies the invariant |
| `Rules.IdleAdvance` | main.go:564-680 | with no bullet in flight the entity pass leaves no bullet and scores nothing |
| `Rules.IdleTick` | main.go:466-494 | an idle Playing update with no bullet in flight keeps the score, starts no aiming and fires nothing |
| `Rules.IdlePlayingTick` | main.go:447-703 | one idle tick of a reachable round with nothing in flight keeps the score and stays idle; it ends the round exactly on the mode's 3780th tick and otherwise advances the counter by one |
| `Rules.IdleNext` | main.go:447-703 | a run of ticks from an idle Playing state ends where the run of the remaining ticks ends from a state r1 with the facts of one idle tick: same score, GameOver exactly on the mode's 3780th tick, and otherwise still idle with the counter one higher |
| `Rules.IdleRound` | main.go:447-703 | a round without touches keeps its score and ends in GameOver exactly when the round time is used up |
| `Rules.IdleRest` | main.go:447-703 | after the first idle tick of a round, the remaining idle ticks keep the score and end in GameOver exactly when the round time is used up |

## Left out

- Rendering: every `Draw` method, the sprite patterns, fonts, the sight
  preview (`drawSight`, including its quadratic root) and the title-screen
  demo enemies. They draw and do not change the state.
- Scenery leaves (main.go:1058-1074): they are decorative and drawn only.
  The generator they advance is folded into the `reseed` input of a restart.
- Audio and background music: fire-and-forget calls whose results are never
  read.
- Telemetry (`sendLog`, touch-buffer flushing, the heartbeat every 600
  ticks): asynchronous logging with no effect on the state.
- The score-submission goroutine and its channel: the model keeps a "ranking
  requested" flag and a per-tick poll input; the concurrency is not
  modelled.
- UUIDs, wall-clock seeding and `main`: environment glue. The seeded
  generator is an input.
- Floating point: all arithmetic is exact over the reals, and the retry in
  `Float64` on a rounded 1.0 is not modelled.
- Tick counters are `nat`: the `uint64` counters never wrap within any
  real-world playing time.
- Fish.Update only counts ticks; `fishTicks` is kept, and nothing reads it.
- Entities.UpdateGain: the sine arc is the `Trig` oracle, so its shape
  (up then down, back to y0 at age 60) is not proved.
- Aim.NewBullet: the speed and direction are the exact real-number values
  of the source's atan2/cos/sin expressions, not the floating-point
  results.

=== FILE: aim.dfy ===
/** Turning the player's drag into a shot (main.go:466-473, 730-767). */
module Aim {

  import opened Projection
  import opened Entities
  import Timelines

  /** Screen radius around the fish in which a press starts aiming. */
  const TouchableR: real := 50.0
  const BulletR: real := 10.0
  /** Depth velocity of every bullet. */
  const BulletVz: real := 3.0
  /** Speed of a drag that spans the whole fish-to-bottom distance. */
  const MaxSpeed: real := 40.0

  /** A press at (tx, ty) starts aiming when it lands strictly inside the
      touchable circle around the fish's screen position. */
  predicate NearFish(tx: int, ty: int)
  {
    var dx := tx as real - FishScreenX;
    var dy := ty as real - FishScreenY;
    dx * dx + dy * dy < TouchableR * TouchableR
  }

  lemma SquareBelow(d: real, k: real)
    requires k > 0.0
    ensures d * d < k * k ==> -k < d < k
  {
    if d >= k {
      assert d * d >= k * d >= k * k;
    } else if d <= -k {
      assert d * d >= -k * d >= k * k;
    }
  }

  /** The touchable circle lies inside a 100-pixel box around the fish. */
  lemma NearFishBox(tx: int, ty: int)
    requires NearFish(tx, ty)
    ensures 270 < tx < 370 && 310 < ty < 410
  {
    FishScreenPosition();
    var dx := tx as real - FishScreenX;
    var dy := ty as real - FishScreenY;
    assert dx * dx >= 0.0 && dy * dy >= 0.0;
    SquareBelow(dx, TouchableR);
    SquareBelow(dy, TouchableR);
  }

  /** The touch position clamped to the screen and to no higher than the
      fish. */
  function HoldPosition(tx: int, ty: int): (p: (real, real))
    ensures 0.0 <= p.0 <= ScreenWidth && FishScreenY <= p.1 <= ScreenHeight
    ensures 0.0 <= tx as real <= ScreenWidth ==> p.0 == tx as real
    ensures FishScreenY <= ty as real <= ScreenHeight ==> p.1 == ty as real
    ensures tx < 0 ==> p.0 == 0.0
    ensures tx as real > ScreenWidth ==> p.0 == ScreenWidth
    ensures ty as real < FishScreenY ==> p.1 == FishScreenY
    ensures ty as real > ScreenHeight ==> p.1 == ScreenHeight
  {
    FishScreenPosition();
    var x := tx as real;
    var y := ty as real;
    var x1 := if x < 0.0 then 0.0 else x;
    var x2 := if x1 > ScreenWidth then ScreenWidth else x1;
    var y1 := if y < FishScreenY then FishScreenY else y;
    var y2 := if y1 > ScreenHeight then ScreenHeight else y1;
    (x2, y2)
  }

  /** Speed per screen pixel of drag. */
  const SpeedScale: real := MaxSpeed / (ScreenHeight - FishScreenY)

  /** The bullet fired by releasing at screen point (tx, ty). The source
      computes speed r = 40 d / (480 - fishY) and direction atan2 of the
      vector from the touch to the fish; over the reals r cos(atan2(dy, dx))
      is r dx / d, which is what is written here (and 0 when d = 0, as
      atan2(0, 0) = 0 gives). */
  function NewBullet(tx: real, ty: real): (b: Bullet)
    ensures b.ticks == 0 && b.x == 0.0 && b.y == 0.0 && b.z == CameraF
    ensures b.vz == BulletVz && b.r == BulletR
    // the shot points from the touch towards the fish and beyond
    ensures b.vx * (FishScreenY - ty) == b.vy * (FishScreenX - tx)
    ensures b.vx * (FishScreenX - tx) >= 0.0 && b.vy * (FishScreenY - ty) >= 0.0
    // its speed is proportional to the drag distance
    ensures b.vx * b.vx + b.vy * b.vy
         == SpeedScale * SpeedScale
            * ((FishScreenX - tx) * (FishScreenX - tx) + (FishScreenY - ty) * (FishScreenY - ty))
  {
    FishScreenPosition();
    var dx := FishScreenX - tx;
    var dy := FishScreenY - ty;
    assert SpeedScale == 1.0 / 3.0;
    Bullet(0, 0.0, 0.0, CameraF, SpeedScale * dx, SpeedScale * dy, BulletVz, BulletR)
  }

  /** A drag straight down to the bottom edge gives the fastest shot, and it
      goes straight up. */
  lemma StraightDownShot()
    ensures var p := HoldPosition(320, 480);
      var b := NewBullet(p.0, p.1);
      b.vx == 0.0 && b.vy == -MaxSpeed
  {
    FishScreenPosition();
  }

  /** Whatever the release point, the shot never goes downwards and never
      rises faster than the straight-down drag makes it; it reaches that
      speed exactly when the release is at or below the bottom edge. */
  lemma ShotRiseBound(tx: int, ty: int)
    ensures var p := HoldPosition(tx, ty);
      var b := NewBullet(p.0, p.1);
      && -MaxSpeed <= b.vy <= 0.0
      && (b.vy == -MaxSpeed <==> ty as real >= ScreenHeight)
  {
    FishScreenPosition();
  }

  /** Every fired bullet is strictly deeper after each tick than before. */
  lemma {:induction false} FiredBulletRecedes(tx: int, ty: int, m: nat, n: nat)
    requires m < n
    ensures var p := HoldPosition(tx, ty);
      var b := NewBullet(p.0, p.1);
      && Timelines.BulletRun(b, n).z == CameraF + (n as real) * BulletVz
      && Timelines.BulletRun(b, m).z < Timelines.BulletRun(b, n).z
  {
    var p := HoldPosition(tx, ty);
    var b := NewBullet(p.0, p.1);
    Timelines.BulletClosedForm(b, n);
    Timelines.BulletDepthIncreases(b, m, n);
  }
}

=== FILE: archerfish.dfy ===
/** The game as a whole (main.go:386-728, 1016-1077): the mode machine
    Title -> Playing -> GameOver -> Ranking/Title and the Playing tick that
    drives the spawner, the entity pipeline and the collision pass. */
module Archerfish {

  import opened Wrappers
  import opened Oracles
  import opened Projection
  import opened Entities
  import opened Aim
  import opened Spawner
  import opened Collision
  import opened Pipeline

  datatype Mode = Title | Playing | GameOver | Ranking

  /** One ranking entry as delivered by the score service. */
  datatype Score = Score(playerId: string, score: int)

  /** The touch events of one tick and the current pointer position. */
  datatype Input = Input(justTouched: bool, justReleased: bool, x: int, y: int)

  /** Values that reach a tick from outside the simulation: the result of a
      non-blocking receive on the ranking channel (None while nothing is
      ready; a closed channel after a failed fetch delivers Some([])), the
      generator a restart would seed (already past the scenery layout), and
      the trigonometric oracle. */
  datatype Env = Env(poll: Option<seq<Score>>, reseed: Rng, trig: Trig)

  /** The fish's position is fixed, so only its age is kept. The
      `rankingRequested` flag stands for a non-nil ranking channel. */
  datatype Game = Game(
    mode: Mode,
    ticksFromModeStart: nat,
    hold: bool,
    score: int,
    rankingRequested: bool,
    ranking: seq<Score>,
    fishTicks: nat,
    field: Playfield,
    timeInTicks: nat,
    rng: Rng)

  /** Ticks of count-down before the round clock starts. */
  const LeadInTicks: nat := 3 * 60
  /** Length of a round on the round clock. */
  const FinishTimeInTicks: nat := 60 * 60
  /** Ticks a result screen ignores taps for. */
  const CooldownTicks: nat := 60
  /** Enemies may appear on every multiple of this many ticks. */
  const SpawnBeat: nat := 60
  /** Height of the fish sprite (10 rows of 5-pixel dots); shot splashes
      start half of it above the fish. */
  const FishImageHeight: real := 50.0

  /** Entering a mode restarts its counter and changes nothing else. */
  function SetNextMode(g: Game, mode: Mode): (r: Game)
    ensures r.mode == mode && r.ticksFromModeStart == 0
    ensures r.(mode := g.mode, ticksFromModeStart := g.ticksFromModeStart) == g
  {
    g.(mode := mode, ticksFromModeStart := 0)
  }

  /** Round clock of a Playing state whose mode counter reads `t`. */
  function PlayClock(t: nat): nat
  {
    if t > LeadInTicks then t - LeadInTicks else 0
  }

  /** What holds of every state the game can reach. */
  predicate Inv(g: Game)
  {
    && InFront(g.field.enemies)
    && g.score >= 0
    && (g.mode == Title ==>
          && g.timeInTicks == 0 && g.score == 0 && !g.hold && g.field == EmptyField
          && !g.rankingRequested && g.ranking == [])
    && (g.mode == Playing ==>
          && g.timeInTicks == PlayClock(g.ticksFromModeStart)
          && g.timeInTicks < FinishTimeInTicks
          && !g.rankingRequested && g.ranking == [])
    && (g.mode == GameOver ==>
          g.timeInTicks == FinishTimeInTicks && g.rankingRequested && g.ranking == [])
    && (g.mode == Ranking ==> |g.ranking| > 0)
  }

  /** The state reset of a (re)start: a fresh round on the title screen. */
  function Initialize(reseed: Rng): (r: Game)
    ensures Inv(r) && r.mode == Title && r.ticksFromModeStart == 0 && r.rng == reseed
  {
    var g := Game(Title, 0, false, 0, false, [], 0, EmptyField, 0, reseed);
    SetNextMode(g, Title)
  }

  /** Aiming is on after this tick's press, if any. */
  predicate Aiming(g: Game, inp: Input)
  {
    g.hold || (g.timeInTicks > 0 && inp.justTouched && NearFish(inp.x, inp.y))
  }

  /** The shot: a bullet towards the clamped release point and a burst of
      five splashes where the fish leaves the water. */
  function Fire(f: Playfield, inp: Input, rng: Rng, trig: Trig): (r: (Playfield, Rng))
    ensures |r.0.bullets| == |f.bullets| + 1 && r.0.bullets[..|f.bullets|] == f.bullets
    ensures r.0.bullets[|f.bullets|].vz == BulletVz && r.0.bullets[|f.bullets|].z == CameraF
    ensures var p := HoldPosition(inp.x, inp.y); r.0.bullets[|f.bullets|] == NewBullet(p.0, p.1)
    ensures |r.0.splashes| == |f.splashes| + BurstSize && r.0.splashes[..|f.splashes|] == f.splashes
    ensures forall i :: |f.splashes| <= i < |r.0.splashes| ==>
      var sp := r.0.splashes[i];
      sp.ticks == 0 && sp.x == 0.0 && sp.y == -FishImageHeight / 2.0 && sp.z == CameraF
    ensures r.0.enemies == f.enemies && r.0.gains == f.gains
    ensures r.1 == Skip(rng, 2 * BurstSize)
  {
    var p := HoldPosition(inp.x, inp.y);
    var b := Burst(BurstSize, 0.0, -FishImageHeight / 2.0, CameraF, 5.0, 10.0, rng, trig);
    (f.(bullets := f.bullets + [NewBullet(p.0, p.1)], splashes := f.splashes + b.0), b.1)
  }

  /** A press near the fish starts aiming; releasing while aiming fires. */
  function HandleTouch(g: Game, inp: Input, trig: Trig): (r: Game)
    ensures r.hold <==> Aiming(g, inp) && !inp.justReleased
    ensures |r.field.bullets|
         == |g.field.bullets| + (if Aiming(g, inp) && inp.justReleased then 1 else 0)
    ensures r.field.enemies == g.field.enemies && r.field.gains == g.field.gains
    ensures r == g.(hold := r.hold, field := r.field, rng := r.rng)
    ensures Aiming(g, inp) && inp.justReleased ==> (r.field, r.rng) == Fire(g.field, inp, g.rng, trig)
    ensures !(Aiming(g, inp) && inp.justReleased) ==> r.field == g.field && r.rng == g.rng
  {
    if Aiming(g, inp) && inp.justReleased then
      var shot := Fire(g.field, inp, g.rng, trig);
      g.(hold := false, field := shot.0, rng := shot.1)
    else g.(hold := Aiming(g, inp))
  }

  /** Enemies may enter on the spawn beat. */
  function SpawnPhase(g: Game): (r: Game)
    requires InFront(g.field.enemies)
    ensures InFront(r.field.enemies)
    ensures r == g.(field := g.field.(enemies := r.field.enemies), rng := r.rng)
    ensures g.ticksFromModeStart % SpawnBeat != 0 ==> r == g
    ensures g.ticksFromModeStart % SpawnBeat == 0 ==>
      r.field.enemies == Spawn(g.field.enemies, g.rng).0 && r.rng == Spawn(g.field.enemies, g.rng).1
    ensures g.ticksFromModeStart % SpawnBeat == 0 ==>
      var n := |g.field.enemies|;
      && n <= |r.field.enemies| <= n + |Appearances|
      && r.field.enemies[..n] == g.field.enemies
      && r.rng == Skip(g.rng, |Appearances| + |r.field.enemies| - n)
  {
    if g.ticksFromModeStart % SpawnBeat == 0 then
      var s := Spawn(g.field.enemies, g.rng);
      assert InFront(s.0) by {
        forall i | 0 <= i < |s.0|
          ensures s.0[i].z > 0.0
        {
          if i < |g.field.enemies| {
            assert s.0[i] == s.0[..|g.field.enemies|][i];
          }
        }
      }
      g.(field := g.field.(enemies := s.0), rng := s.1)
    else g
  }

  /** The round clock after this tick's advance: it starts once the
      lead-in is over. */
  function Clocked(g: Game): (r: Game)
    ensures r == g.(timeInTicks := r.timeInTicks)
    ensures r.timeInTicks == g.timeInTicks + (if g.ticksFromModeStart > LeadInTicks then 1 else 0)
  {
    if g.ticksFromModeStart > LeadInTicks then g.(timeInTicks := g.timeInTicks + 1) else g
  }

  /** The states a Playing tick passes through, in the source's order. */
  datatype Phases = Phases(touched: Game, spawned: Game, advanced: Advanced)

  /** The phases of a Playing tick: touch handling on the clocked state,
      then the spawn beat, then the entity pass on the spawned field and
      generator. Together the first two change only the clock, the aiming
      flag, the field and the generator. */
  function TickPhases(g: Game, inp: Input, trig: Trig): (p: Phases)
    requires InFront(g.field.enemies)
    ensures p.touched == HandleTouch(Clocked(g), inp, trig) && InFront(p.touched.field.enemies)
    ensures p.spawned == SpawnPhase(p.touched) && InFront(p.spawned.field.enemies)
    ensures p.advanced == Advance(p.spawned.field, p.spawned.rng, trig)
    ensures p.spawned == Clocked(g).(hold := p.spawned.hold, field := p.spawned.field, rng := p.spawned.rng)
    ensures p.spawned.hold <==> Aiming(Clocked(g), inp) && !inp.justReleased
    ensures p.spawned.field.gains == g.field.gains
  {
    var g1 := HandleTouch(Clocked(g), inp, trig);
    var g2 := SpawnPhase(g1);
    Phases(g1, g2, Advance(g2.field, g2.rng, trig))
  }

  /** The Playing tick after the mode counter was advanced. */
  function PlayingStep(g: Game, inp: Input, trig: Trig): (r: Game)
    requires g.mode == Playing && InFront(g.field.enemies)
    ensures InFront(r.field.enemies) && Pruned(r.field)
    ensures var p := TickPhases(g, inp, trig);
      && r.field == p.advanced.field && r.rng == p.advanced.rng
      && r.score == g.score + p.advanced.points && r.fishTicks == g.fishTicks + 1
    ensures r.timeInTicks == g.timeInTicks + (if g.ticksFromModeStart > LeadInTicks then 1 else 0)
    ensures r.mode == (if r.timeInTicks >= FinishTimeInTicks then GameOver else Playing)
    ensures r.ticksFromModeStart == (if r.mode == GameOver then 0 else g.ticksFromModeStart)
    ensures r.hold <==> Aiming(g.(timeInTicks := r.timeInTicks), inp) && !inp.justReleased
    ensures r.score >= g.score
    ensures var aged := UpdateGains(g.field.gains, trig);
      && |aged| <= |r.field.gains| && r.field.gains[..|aged|] == aged
      && r.score == g.score + GainTotal(r.field.gains[|aged|..])
    ensures r.ranking == g.ranking
    ensures r.rankingRequested == (g.rankingRequested || r.mode == GameOver)
  {
    var p := TickPhases(g, inp, trig);
    var a := p.advanced;
    var g3 := p.spawned.(fishTicks := g.fishTicks + 1, field := a.field,
                         score := g.score + a.points, rng := a.rng);
    var aged := UpdateGains(g.field.gains, trig);
    assert a.field.gains[..|aged|] == aged && a.field.gains[|aged|..] == a.newGains;
    if g3.timeInTicks >= FinishTimeInTicks then
      SetNextMode(g3, GameOver).(rankingRequested := true)
    else g3
  }

  /** The ranking after this tick's non-blocking receive: a value is taken
      only from a channel that exists. */
  function Polled(g: Game, poll: Option<seq<Score>>): (r: seq<Score>)
    ensures !g.rankingRequested || poll.None? ==> r == g.ranking
    ensures g.rankingRequested && poll.Some? ==> r == poll.value
  {
    if g.rankingRequested && poll.Some? then poll.value else g.ranking
  }

  /** The game with this tick counted in the current mode. */
  function Counted(g: Game): (r: Game)
    ensures r == g.(ticksFromModeStart := r.ticksFromModeStart)
    ensures r.ticksFromModeStart == g.ticksFromModeStart + 1
  {
    g.(ticksFromModeStart := g.ticksFromModeStart + 1)
  }

  /** One tick of the game. */
  function Step(g: Game, inp: Input, env: Env): (r: Game)
    requires InFront(g.field.enemies)
    ensures InFront(r.field.enemies)
  {
    var t := Counted(g);
    match g.mode
    case Title =>
      if inp.justTouched then SetNextMode(t, Playing) else t
    case Playing =>
      PlayingStep(t, inp, env.trig)
    case GameOver =>
      if t.ticksFromModeStart > CooldownTicks && inp.justTouched then
        var ranking := Polled(t, env.poll);
        if |ranking| > 0 then SetNextMode(t.(ranking := ranking), Ranking)
        else Initialize(env.reseed)
      else t
    case Ranking =>
      if |t.ranking| == 0 || (t.ticksFromModeStart > CooldownTicks && inp.justTouched) then
        Initialize(env.reseed)
      else t
  }
}

=== FILE: collision.dfy ===
/** Bullet-versus-enemy hit test and scoring (main.go:642-680). Bullets are
    taken in order; each is tested against the enemies in list order and the
    first enemy it hits wins. */
module Collision {

  import opened Wrappers
  import opened Projection
  import opened Entities

  /** Points for hitting an enemy of each kind. */
  function KindScore(kind: EnemyKind): (p: nat)
    ensures kind == Normal <==> p == 1
    ensures kind == Dizzy <==> p == 3
    ensures kind == Shy <==> p == 5
  {
    match kind
    case Normal => 1
    case Dizzy => 3
    case Shy => 5
  }

  /** The spheres overlap: squared centre distance strictly below the squared
      sum of radii (touching is not a hit). */
  predicate Overlaps(e: Enemy, b: Bullet)
  {
    var dx := e.x - b.x;
    var dy := e.y - b.y;
    var dz := e.z - b.z;
    dx * dx + dy * dy + dz * dz < (e.r + b.r) * (e.r + b.r)
  }

  /** An enemy can still be scored by this bullet. */
  predicate Hittable(e: Enemy, b: Bullet)
  {
    !e.hit && Overlaps(e, b)
  }

  predicate InFront(es: seq<Enemy>)
  {
    forall i :: 0 <= i < |es| ==> es[i].z > 0.0
  }

  /** Index of the first enemy the bullet hits, if any. */
  function FirstTarget(b: Bullet, es: seq<Enemy>): (k: Option<nat>)
    ensures k.Some? ==> k.value < |es| && Hittable(es[k.value], b)
    ensures k.Some? ==> forall j :: 0 <= j < k.value ==> !Hittable(es[j], b)
    ensures k.None? <==> forall j :: 0 <= j < |es| ==> !Hittable(es[j], b)
  {
    if es == [] then None
    else if Hittable(es[0], b) then Some(0)
    else
      match FirstTarget(b, es[1..])
      case None => None
      case Some(k) => Some(k + 1)
  }

  /** The floating "+n" shown where an enemy was hit. */
  function GainAt(e: Enemy): (g: GainEffect)
    requires e.z > 0.0
    ensures g.ticks == 0 && g.score == KindScore(e.kind)
    ensures (g.x, g.y) == ToScreen(e.x, e.y, e.z)
  {
    var s := ToScreen(e.x, e.y, e.z);
    GainEffect(0, s.0, s.1, 0.0, KindScore(e.kind))
  }

  /** Number of enemies already marked hit. */
  function HitCount(es: seq<Enemy>): nat
  {
    if es == [] then 0 else (if es[0].hit then 1 else 0) + HitCount(es[1..])
  }

  /** Points already scored on the enemies of the list. */
  function HitScore(es: seq<Enemy>): nat
  {
    if es == [] then 0 else (if es[0].hit then KindScore(es[0].kind) else 0) + HitScore(es[1..])
  }

  /** Total of the points shown by a list of gain effects. */
  function GainTotal(gs: seq<GainEffect>): int
  {
    if gs == [] then 0 else gs[0].score + GainTotal(gs[1..])
  }

  /** Marking one more enemy hit adds one hit and that enemy's points. */
  lemma {:induction false} MarkHitCounts(es: seq<Enemy>, k: nat)
    requires k < |es| && !es[k].hit
    ensures HitCount(es[k := es[k].(hit := true)]) == HitCount(es) + 1
    ensures HitScore(es[k := es[k].(hit := true)]) == HitScore(es) + KindScore(es[k].kind)
  {
    var es' := es[k := es[k].(hit := true)];
    if k == 0 {
      assert es'[1..] == es[1..];
    } else {
      assert es'[1..] == es[1..][k - 1 := es[k].(hit := true)];
      MarkHitCounts(es[1..], k - 1);
    }
  }

  /** What one bullet does to the enemy list: the index of the enemy it
      hit, if any, the updated list, the points won and the effect shown. */
  datatype Impact = Impact(target: Option<nat>, enemies: seq<Enemy>, points: nat, gain: Option<GainEffect>)

  /** One bullet: the first hittable enemy (in list order) is marked hit and
      scored, every other enemy is left as it was. */
  function Strike(b: Bullet, es: seq<Enemy>): (r: Impact)
    requires InFront(es)
    ensures r.target.Some? <==> exists j :: 0 <= j < |es| && Hittable(es[j], b)
    ensures r.target.None? ==> r.enemies == es && r.points == 0 && r.gain.None?
    ensures r.target.Some? ==>
      var k := r.target.value;
      && k < |es| && Hittable(es[k], b)
      && (forall j :: 0 <= j < k ==> !Hittable(es[j], b))
      && r.enemies == es[k := es[k].(hit := true)]
      && r.points == KindScore(es[k].kind)
      && r.gain == Some(GainAt(es[k]))
  {
    match FirstTarget(b, es)
    case None => Impact(None, es, 0, None)
    case Some(k) =>
      Impact(Some(k), es[k := es[k].(hit := true)], KindScore(es[k].kind), Some(GainAt(es[k])))
  }

  /** Result of the whole pass; `stages[i]` is the enemy list bullet `i`
      met. */
  datatype Outcome = Outcome(bullets: seq<Bullet>, enemies: seq<Enemy>, points: nat,
                             gains: seq<GainEffect>, stages: seq<seq<Enemy>>)

  /** Bullet `i` met the enemy list `stages[i]` and left `stages[i + 1]`. */
  predicate Strikes(bs: seq<Bullet>, stages: seq<seq<Enemy>>)
  {
    && |stages| == |bs| + 1
    && (forall i :: 0 <= i < |stages| ==> InFront(stages[i]))
    && forall i :: 0 <= i < |bs| ==> stages[i + 1] == Strike(bs[i], stages[i]).enemies
  }

  lemma StrikesTail(bs: seq<Bullet>, stages: seq<seq<Enemy>>)
    requires bs != [] && Strikes(bs, stages)
    ensures Strikes(bs[1..], stages[1..])
  {
    forall i | 0 <= i < |bs| - 1
      ensures stages[1..][i + 1] == Strike(bs[1..][i], stages[1..][i]).enemies
    {
      assert bs[1..][i] == bs[i + 1];
    }
  }

  lemma StrikesCons(bs: seq<Bullet>, es: seq<Enemy>, stages: seq<seq<Enemy>>)
    requires bs != [] && InFront(es) && Strikes(bs[1..], stages)
    requires stages[0] == Strike(bs[0], es).enemies
    ensures Strikes(bs, [es] + stages)
    ensures Misses(bs, [es] + stages)
         == (if Strike(bs[0], es).target.None? then [bs[0]] else []) + Misses(bs[1..], stages)
    ensures Shown(bs, [es] + stages)
         == (if Strike(bs[0], es).gain.Some? then [Strike(bs[0], es).gain.value] else [])
            + Shown(bs[1..], stages)
  {
    var all := [es] + stages;
    assert all[1..] == stages;
    forall i | 0 <= i < |bs|
      ensures all[i + 1] == Strike(bs[i], all[i]).enemies
    {
      if i > 0 {
        assert bs[i] == bs[1..][i - 1] && all[i] == stages[i - 1];
      }
    }
  }

  /** The bullets whose strike found no target, in their original order. */
  function Misses(bs: seq<Bullet>, stages: seq<seq<Enemy>>): seq<Bullet>
    requires Strikes(bs, stages)
    decreases |bs|
  {
    if bs == [] then []
    else
      StrikesTail(bs, stages);
      (if Strike(bs[0], stages[0]).target.None? then [bs[0]] else []) + Misses(bs[1..], stages[1..])
  }

  /** The gain effects the strikes showed, in bullet order. */
  function Shown(bs: seq<Bullet>, stages: seq<seq<Enemy>>): seq<GainEffect>
    requires Strikes(bs, stages)
    decreases |bs|
  {
    if bs == [] then []
    else
      StrikesTail(bs, stages);
      var g := Strike(bs[0], stages[0]).gain;
      (if g.Some? then [g.value] else []) + Shown(bs[1..], stages[1..])
  }

  /** Only hit flags may differ, and only from false to true. */
  predicate OnlyNewHits(es: seq<Enemy>, es': seq<Enemy>)
  {
    && |es'| == |es|
    && forall i :: 0 <= i < |es| ==> es'[i] == es[i].(hit := es'[i].hit) && (es[i].hit ==> es'[i].hit)
  }

  lemma OnlyNewHitsTransitive(a: seq<Enemy>, b: seq<Enemy>, c: seq<Enemy>)
    requires OnlyNewHits(a, b) && OnlyNewHits(b, c)
    ensures OnlyNewHits(a, c)
  {
  }

  /** The order of the pass: the bullets strike in turn, each against the
      list the previous ones left; exactly those that found no target
      survive, in their original order, and the gain effects are those of
      the strikes that hit, in the same order. */
  predicate Struck(bs: seq<Bullet>, es: seq<Enemy>, r: Outcome)
  {
    && Strikes(bs, r.stages) && r.stages[0] == es && r.stages[|bs|] == r.enemies
    && r.bullets == Misses(bs, r.stages)
    && r.gains == Shown(bs, r.stages)
  }

  /** The bookkeeping of the pass: only hit flags change, and only from
      false to true; every bullet either survives or is spent on exactly one
      hit; the points are those of the enemies newly hit and also what the
      new gain effects show. */
  predicate Tallied(bs: seq<Bullet>, es: seq<Enemy>, r: Outcome)
  {
    && OnlyNewHits(es, r.enemies) && InFront(r.enemies)
    && |r.bullets| + |r.gains| == |bs|
    && (forall b :: b in r.bullets ==> b in bs)
    && |r.gains| == HitCount(r.enemies) - HitCount(es)
    && r.points == HitScore(r.enemies) - HitScore(es)
    && r.points == GainTotal(r.gains)
    && (forall i :: 0 <= i < |r.gains| ==> r.gains[i].ticks == 0)
  }

  /** What the collision pass promises of its outcome `r` for bullets `bs`
      and enemies `es`. */
  predicate Accounted(bs: seq<Bullet>, es: seq<Enemy>, r: Outcome)
  {
    Struck(bs, es, r) && Tallied(bs, es, r)
  }

  /** The first bullet's strike in front of the rest of the pass. */
  lemma StruckStep(bs: seq<Bullet>, es: seq<Enemy>, s: Impact, rest: Outcome, r: Outcome)
    requires bs != [] && InFront(es) && s == Strike(bs[0], es)
    requires Struck(bs[1..], s.enemies, rest)
    requires r.stages == [es] + rest.stages && r.enemies == rest.enemies
    requires r.bullets == (if s.target.None? then [bs[0]] else []) + rest.bullets
    requires r.gains == (if s.gain.Some? then [s.gain.value] else []) + rest.gains
    ensures Struck(bs, es, r)
  {
    StrikesCons(bs, es, rest.stages);
  }

  /** A first bullet that hits: it is spent on its target's gain effect. */
  lemma TalliedHit(bs: seq<Bullet>, es: seq<Enemy>, s: Impact, rest: Outcome)
    requires bs != [] && InFront(es) && s == Strike(bs[0], es) && s.target.Some?
    requires Tallied(bs[1..], s.enemies, rest)
    ensures Tallied(bs, es, Outcome(rest.bullets, rest.enemies, s.points + rest.points,
                                    [s.gain.value] + rest.gains, [es] + rest.stages))
  {
    MarkHitCounts(es, s.target.value);
    OnlyNewHitsTransitive(es, s.enemies, rest.enemies);
    var gains := [s.gain.value] + rest.gains;
    assert gains[0] == s.gain.value && gains[1..] == rest.gains;
    forall b | b in rest.bullets
      ensures b in bs
    {
      assert b in bs[1..];
    }
  }

  /** A first bullet that misses: it survives and nothing else changes. */
  lemma TalliedMiss(bs: seq<Bullet>, es: seq<Enemy>, s: Impact, rest: Outcome)
    requires bs != [] && InFront(es) && s == Strike(bs[0], es) && s.target.None?
    requires Tallied(bs[1..], s.enemies, rest)
    ensures Tallied(bs, es, Outcome([bs[0]] + rest.bullets, rest.enemies, rest.points,
                                    rest.gains, [es] + rest.stages))
  {
    forall b | b in [bs[0]] + rest.bullets
      ensures b in bs
    {
      if b != bs[0] {
        assert b in bs[1..];
      }
    }
  }

  /** The collision pass over all live bullets, in order. */
  function Collide(bs: seq<Bullet>, es: seq<Enemy>): (r: Outcome)
    requires InFront(es)
    ensures Accounted(bs, es, r)
  {
    if bs == [] then Outcome([], es, 0, [], [es])
    else
      var s := Strike(bs[0], es);
      var rest := Collide(bs[1..], s.enemies);
      if s.target.Some? then
        var r := Outcome(rest.bullets, rest.enemies, s.points + rest.points,
                         [s.gain.value] + rest.gains, [es] + rest.stages);
        StruckStep(bs, es, s, rest, r);
        TalliedHit(bs, es, s, rest);
        r
      else
        var r := Outcome([bs[0]] + rest.bullets, rest.enemies, rest.points, rest.gains,
                         [es] + rest.stages);
        StruckStep(bs, es, s, rest, r);
        TalliedMiss(bs, es, s, rest);
        r
  }

  /** Enemies only lose hittability over the pass: one that was not
      hittable before is not hittable later. */
  lemma StaysUnhittable(es: seq<Enemy>, es': seq<Enemy>, b: Bullet, j: nat)
    requires OnlyNewHits(es, es') && j < |es| && !Hittable(es[j], b)
    ensures !Hittable(es'[j], b)
  {
    assert es'[j] == es[j].(hit := es'[j].hit);
  }

  /** A bullet that overlaps no un-hit enemy at the start of the pass is
      never removed by it. */
  lemma {:induction false} MissesSurvive(bs: seq<Bullet>, es: seq<Enemy>, i: nat)
    requires InFront(es) && i < |bs|
    requires forall j :: 0 <= j < |es| ==> !Hittable(es[j], bs[i])
    ensures bs[i] in Collide(bs, es).bullets
  {
    var s := Strike(bs[0], es);
    if i == 0 {
      assert s.target.None?;
    } else {
      forall j | 0 <= j < |s.enemies|
        ensures !Hittable(s.enemies[j], bs[i])
      {
        StaysUnhittable(es, s.enemies, bs[i], j);
      }
      assert bs[1..][i - 1] == bs[i];
      MissesSurvive(bs[1..], s.enemies, i - 1);
    }
  }

  /** A single bullet is removed exactly when it hits something, and then
      it scores one enemy. */
  lemma LoneBullet(b: Bullet, es: seq<Enemy>)
    requires InFront(es)
    ensures var r := Collide([b], es);
      && (r.bullets == [] <==> exists j :: 0 <= j < |es| && Hittable(es[j], b))
      && (r.bullets == [] ==> |r.gains| == 1 && HitCount(r.enemies) == HitCount(es) + 1)
      && (r.bullets != [] ==> r.bullets == [b] && r.enemies == es && r.points == 0)
  {
    assert [b][1..] == [];
  }
}

=== FILE: entities.dfy ===
/** The four kinds of moving things of a round and their one-tick update
    rules (main.go:151-334). Every update is a pure function of the entity
    and, where the source reads the shared generator or a trigonometric
    function, of the corresponding oracle. */
module Entities {

  import opened Oracles

  /** Downward acceleration per tick, shared by bullets, splashes and hit
      enemies. */
  const Gravity: real := 0.5

  /** One semi-implicit Euler step under gravity: the vertical velocity is
      updated first and the new velocity moves the position. */
  function Fall(y: real, vy: real): (r: (real, real))
    ensures r.1 - vy == Gravity
    ensures r.0 - y == r.1
  {
    var vy' := vy + Gravity;
    (y + vy', vy')
  }

  // ---------------------------------------------------------------- bullets

  datatype Bullet = Bullet(ticks: nat, x: real, y: real, z: real,
                           vx: real, vy: real, vz: real, r: real)

  /** Ballistic flight: constant horizontal and depth velocity, gravity on
      the vertical velocity before the position moves. */
  function UpdateBullet(b: Bullet): (b': Bullet)
    ensures b'.ticks == b.ticks + 1 && b'.r == b.r
    ensures b'.vx == b.vx && b'.x - b.x == b.vx
    ensures b'.vz == b.vz && b'.z - b.z == b.vz
    ensures b'.vy - b.vy == Gravity && b'.y - b.y == b'.vy
  {
    var (y, vy) := Fall(b.y, b.vy);
    b.(ticks := b.ticks + 1, x := b.x + b.vx, y := y, z := b.z + b.vz, vy := vy)
  }

  // ---------------------------------------------------------------- splashes

  /** A water droplet: moves in x and y only, its depth never changes. */
  datatype Splash = Splash(ticks: nat, x: real, y: real, z: real, vx: real, vy: real)

  function UpdateSplash(s: Splash): (s': Splash)
    ensures s'.ticks == s.ticks + 1 && s'.z == s.z
    ensures s'.vx == s.vx && s'.x - s.x == s.vx
    ensures s'.vy - s.vy == Gravity && s'.y - s.y == s'.vy
  {
    var (y, vy) := Fall(s.y, s.vy);
    s.(ticks := s.ticks + 1, x := s.x + s.vx, y := y, vy := vy)
  }

  // ---------------------------------------------------------------- enemies

  datatype EnemyKind = Normal | Dizzy | Shy

  /** `vx0` is the home velocity, captured on the enemy's first update. */
  datatype Enemy = Enemy(ticks: nat, kind: EnemyKind, hit: bool,
                         x: real, y: real, z: real,
                         vx: real, vy: real, vx0: real, r: real)

  /** The Dizzy rule reads the generator only on its own 60-tick beat
      (the `&&` in main.go:233 short-circuits). */
  predicate DrawsCoin(e: Enemy)
  {
    !e.hit && e.kind == Dizzy && (e.ticks + 1) % 60 == 0
  }

  /** Horizontal velocity after the kind-specific rule of a not-hit enemy,
      given the updated tick count `t`, the home velocity and the coin. */
  function PatrolVelocity(kind: EnemyKind, t: nat, vx: real, vx0: real, coin: int): (v: real)
    ensures v != vx ==>
      || (kind == Dizzy && t % 60 == 0 && coin % 2 == 0)
      || (kind == Shy && (t == 120 || t == 240))
    ensures kind == Dizzy && t % 60 == 0 && coin % 2 == 0 ==>
      (vx == 0.0 ==> v == vx0) && (vx != 0.0 ==> v == 0.0)
    ensures kind == Shy && t == 120 ==> v == 0.0
    ensures kind == Shy && t == 240 ==> v == -vx0
  {
    match kind
    case Normal => vx
    case Dizzy =>
      if t % 60 == 0 && coin % 2 == 0 then (if vx == 0.0 then vx0 else 0.0) else vx
    case Shy =>
      if t == 120 then 0.0 else if t == 240 then -vx0 else vx
  }

  /** One tick of an enemy. A hit enemy only falls; otherwise it applies its
      kind's rule and walks along its lane. */
  function UpdateEnemy(e: Enemy, rng: Rng): (res: (Enemy, Rng))
    ensures var e' := res.0;
      && e'.ticks == e.ticks + 1 && e'.kind == e.kind && e'.hit == e.hit
      && e'.z == e.z && e'.r == e.r
      && e'.vx0 == (if e.ticks == 0 then e.vx else e.vx0)
    ensures e.hit ==> var e' := res.0;
      && e'.x == e.x && e'.vx == e.vx
      && e'.vy - e.vy == Gravity && e'.y - e.y == e'.vy
    ensures !e.hit ==> var e' := res.0;
      && e'.y == e.y && e'.vy == e.vy && e'.x - e.x == e'.vx
    ensures res.1 == (if DrawsCoin(e) then Skip(rng, 1) else rng)
  {
    var vx0 := if e.ticks == 0 then e.vx else e.vx0;
    var t := e.ticks + 1;
    if e.hit then
      var (y, vy) := Fall(e.y, e.vy);
      (e.(ticks := t, vx0 := vx0, y := y, vy := vy), rng)
    else
      var (coin, rng') := if DrawsCoin(e) then NextInt(rng) else (0, rng);
      var vx := PatrolVelocity(e.kind, t, e.vx, vx0, coin);
      (e.(ticks := t, vx0 := vx0, vx := vx, x := e.x + vx), rng')
  }

  // ---------------------------------------------------------------- gain effects

  /** Floating "+n" text in screen space; `y0` is captured on the first
      update. */
  datatype GainEffect = GainEffect(ticks: nat, x: real, y: real, y0: real, score: int)

  /** Height of the score arc, in screen pixels. */
  const GainArc: real := 30.0

  function UpdateGain(g: GainEffect, trig: Trig): (g': GainEffect)
    ensures g'.ticks == g.ticks + 1 && g'.x == g.x && g'.score == g.score
    ensures g'.y0 == (if g.ticks == 0 then g.y else g.y0)
    ensures g'.y0 - g'.y == GainArc * trig.sinPi((g'.ticks as real) / 60.0)
  {
    var y0 := if g.ticks == 0 then g.y else g.y0;
    var t := g.ticks + 1;
    g.(ticks := t, y0 := y0, y := y0 - GainArc * trig.sinPi((t as real) / 60.0))
  }
}

=== FILE: oracles.dfy ===
/** The two sources of values that the simulation consumes but does not
    compute: the round's pseudo-random generator and the trigonometric
    functions used for splash directions and the gain-effect arc. */
module Oracles {

  const Int63Limit: int := 0x8000_0000_0000_0000

  /** The range of Go's `Int63`, which feeds both `Int` and `Float64`. */
  type Int63 = x: int | 0 <= x < Int63Limit

  /** A seeded generator: an infinite stream of 63-bit draws and a cursor
      counting how many of them have been consumed. */
  datatype Rng = Rng(source: nat -> Int63, pos: nat)

  /** The generator after `n` more draws. */
  function Skip(r: Rng, n: nat): Rng
  {
    r.(pos := r.pos + n)
  }

  /** `rand.Int()`: one non-negative draw. */
  function NextInt(r: Rng): (res: (int, Rng))
    ensures 0 <= res.0 < Int63Limit
    ensures res.1 == Skip(r, 1)
  {
    (r.source(r.pos), Skip(r, 1))
  }

  /** `rand.Float64()`: one draw scaled into [0, 1). */
  function NextFloat(r: Rng): (res: (real, Rng))
    ensures 0.0 <= res.0 < 1.0
    ensures res.1 == Skip(r, 1)
  {
    ((r.source(r.pos) as real) / (Int63Limit as real), Skip(r, 1))
  }

  /** `cosPi(u)` stands for cos(pi * u) and `sinPi(u)` for sin(pi * u). */
  datatype Trig = Trig(cosPi: real -> real, sinPi: real -> real)
}

=== FILE: pipeline.dfy ===
/** The entity part of a Playing tick (main.go:560-640): every live entity is
    advanced one tick, and whatever has left the playfield is pruned. Bullets
    and enemies that go under the water leave a burst of splashes behind. */
module Pipeline {

  import opened Oracles
  import opened Seqs
  import opened Projection
  import opened Entities
  import opened Collision

  /** Splashes per burst. */
  const BurstSize: nat := 5
  /** Depth below the water line at which a splash is dropped. */
  const SplashFloor: real := 100.0
  /** Age at which a gain effect is dropped. */
  const GainLifetime: nat := 60

  /** `n` splashes launched from (x, y, z); each draws two uniform values,
      one for the horizontal and one for the (upward) vertical speed. */
  function Burst(n: nat, x: real, y: real, z: real, sx: real, sy: real, rng: Rng, trig: Trig)
    : (res: (seq<Splash>, Rng))
    ensures |res.0| == n
    ensures forall i :: 0 <= i < n ==>
      res.0[i].ticks == 0 && res.0[i].x == x && res.0[i].y == y && res.0[i].z == z
    ensures res.1 == Skip(rng, 2 * n)
  {
    if n == 0 then ([], rng)
    else
      var u := NextFloat(rng);
      var w := NextFloat(u.1);
      var s := Splash(0, x, y, z, sx * trig.cosPi(u.0), -sy * trig.sinPi(w.0));
      var rest := Burst(n - 1, x, y, z, sx, sy, w.1, trig);
      ([s] + rest.0, rest.1)
  }

  /** A splash starting on the water surface with no age. */
  predicate AtSurface(s: Splash)
  {
    s.ticks == 0 && s.y == 0.0
  }

  // ---------------------------------------------------------------- bullets

  predicate BulletAboveWater(b: Bullet) { b.y <= 0.0 }
  predicate BulletUnderWater(b: Bullet) { b.y > 0.0 }

  /** One surface burst of speed 10 for each bullet, in order. */
  function Splashdowns(bs: seq<Bullet>, rng: Rng, trig: Trig): (res: (seq<Splash>, Rng))
    ensures |res.0| == BurstSize * |bs|
    ensures forall i :: 0 <= i < |res.0| ==> AtSurface(res.0[i])
    ensures res.1 == Skip(rng, 2 * |res.0|)
  {
    if bs == [] then ([], rng)
    else
      var b := Burst(BurstSize, bs[0].x, 0.0, bs[0].z, 10.0, 10.0, rng, trig);
      var rest := Splashdowns(bs[1..], b.1, trig);
      (b.0 + rest.0, rest.1)
  }

  datatype BulletPass = BulletPass(kept: seq<Bullet>, splashes: seq<Splash>, rng: Rng)

  /** Advance every bullet; the ones now under the water are removed and
      each leaves a burst of splashes on the surface. */
  function UpdateBullets(bs: seq<Bullet>, rng: Rng, trig: Trig): (r: BulletPass)
    ensures forall b :: b in r.kept <==>
      (exists i :: 0 <= i < |bs| && b == UpdateBullet(bs[i])) && b.y <= 0.0
    ensures r.kept == Filter(Map(bs, UpdateBullet), BulletAboveWater)
    ensures forall i :: 0 <= i < |r.kept| ==> r.kept[i].y <= 0.0
    ensures |r.kept| <= |bs|
    ensures |r.splashes| == BurstSize * (|bs| - |r.kept|)
    ensures forall i :: 0 <= i < |r.splashes| ==> AtSurface(r.splashes[i])
    ensures r.rng == Skip(rng, 2 * |r.splashes|)
  {
    var stepped := Map(bs, UpdateBullet);
    var kept := Filter(stepped, BulletAboveWater);
    var landed := Filter(stepped, BulletUnderWater);
    FilterPartition(stepped, BulletAboveWater, BulletUnderWater);
    var sp := Splashdowns(landed, rng, trig);
    BulletPass(kept, sp.0, sp.1)
  }

  // ---------------------------------------------------------------- splashes

  predicate SplashAlive(s: Splash) { s.y <= SplashFloor }

  /** Advance every splash and drop those that sank past the floor. */
  function UpdateSplashes(ss: seq<Splash>): (r: seq<Splash>)
    ensures forall s :: s in r <==>
      (exists i :: 0 <= i < |ss| && s == UpdateSplash(ss[i])) && s.y <= SplashFloor
    ensures forall i :: 0 <= i < |r| ==> r[i].y <= SplashFloor
    ensures |r| <= |ss|
  {
    Filter(Map(ss, UpdateSplash), SplashAlive)
  }

  // ---------------------------------------------------------------- gain effects

  predicate GainAlive(g: GainEffect) { g.ticks < GainLifetime }

  /** Advance every gain effect and drop those that reached their age. */
  function UpdateGains(gs: seq<GainEffect>, trig: Trig): (r: seq<GainEffect>)
    ensures forall g :: g in r <==>
      (exists i :: 0 <= i < |gs| && g == UpdateGain(gs[i], trig)) && g.ticks < GainLifetime
    ensures forall i :: 0 <= i < |r| ==> r[i].ticks < GainLifetime
    ensures |r| <= |gs|
  {
    Filter(Map(gs, g => UpdateGain(g, trig)), GainAlive)
  }

  // ---------------------------------------------------------------- enemies

  predicate EnemyAboveWater(e: Enemy) { e.y <= 0.0 }
  predicate EnemyUnderWater(e: Enemy) { e.y > 0.0 }

  /** The horizontal screen test of main.go:625 exactly as written. Its `||`
      makes it hold for every enemy. */
  predicate OnScreenAsWritten(e: Enemy)
    requires e.z > 0.0
  {
    var s := ToScreen(e.x, e.y, e.z);
    s.0 > -50.0 || s.0 < ScreenWidth + 50.0
  }

  lemma OnScreenAlways(e: Enemy)
    requires e.z > 0.0
    ensures OnScreenAsWritten(e)
  {
  }

  /** The generator after enemy `e` has had its turn in the enemy pass:
      past its own coin, if it drew one, and past the burst it leaves when
      it went under. */
  function AfterEnemy(e: Enemy, g: Rng): Rng
  {
    var u := UpdateEnemy(e, g);
    if u.0.y > 0.0 then Skip(u.1, 2 * BurstSize) else u.1
  }

  /** Enemy `i` was updated with generator `gens[i]`, and its turn left
      `gens[i + 1]` for the next one. */
  ghost predicate Turns(es: seq<Enemy>, updated: seq<Enemy>, gens: seq<Rng>)
  {
    && |updated| == |es| && |gens| == |es| + 1
    && forall i :: 0 <= i < |es| ==>
      && updated[i] == UpdateEnemy(es[i], gens[i]).0
      && gens[i + 1] == AfterEnemy(es[i], gens[i])
  }

  /** The turn-by-turn description survives putting one more enemy's turn
      in front. */
  lemma TurnsCons(e: Enemy, es: seq<Enemy>, g: Rng, updated: seq<Enemy>, gens: seq<Rng>)
    requires Turns(es, updated, gens) && gens[0] == AfterEnemy(e, g)
    ensures Turns([e] + es, [UpdateEnemy(e, g).0] + updated, [g] + gens)
  {
    var es' := [e] + es;
    var updated' := [UpdateEnemy(e, g).0] + updated;
    var gens' := [g] + gens;
    forall i | 0 <= i < |es'|
      ensures updated'[i] == UpdateEnemy(es'[i], gens'[i]).0
      ensures gens'[i + 1] == AfterEnemy(es'[i], gens'[i])
    {
      if i > 0 {
        assert es'[i] == es[i - 1] && updated'[i] == updated[i - 1];
        assert gens'[i] == gens[i - 1] && gens'[i + 1] == gens[i];
      }
    }
  }

  /** The enemy pass: the updated enemies, the ones kept, the splashes left
      by the drowned ones, and `gens[i]`, the generator enemy `i` drew from. */
  datatype EnemyPass = EnemyPass(updated: seq<Enemy>, kept: seq<Enemy>, splashes: seq<Splash>,
                                 gens: seq<Rng>, rng: Rng)

  /** One enemy's turn in the enemy pass: its update, the burst of speed
      15 it leaves when it went under, and the generator after both. */
  function EnemyTurn(e: Enemy, rng: Rng, trig: Trig): (t: (Enemy, seq<Splash>, Rng))
    ensures t.0 == UpdateEnemy(e, rng).0 && t.2 == AfterEnemy(e, rng)
    ensures |t.1| == (if t.0.y > 0.0 then BurstSize else 0)
    ensures forall i :: 0 <= i < |t.1| ==> AtSurface(t.1[i])
  {
    var u := UpdateEnemy(e, rng);
    if u.0.y > 0.0 then
      var b := Burst(BurstSize, u.0.x, 0.0, u.0.z, 15.0, 15.0, u.1, trig);
      (u.0, b.0, b.1)
    else (u.0, [], u.1)
  }

  /** The enemies' turns in order: the updated enemies, the bursts left by
      the ones that went under, and the generator before each turn. */
  function EnemyTurns(es: seq<Enemy>, rng: Rng, trig: Trig)
    : (r: (seq<Enemy>, seq<Splash>, seq<Rng>))
    ensures Turns(es, r.0, r.2) && r.2[0] == rng && r.2[|es|].source == rng.source
    ensures forall i :: 0 <= i < |es| ==> r.0[i].z == es[i].z
    ensures |r.1| == BurstSize * |Filter(r.0, EnemyUnderWater)|
    ensures forall i :: 0 <= i < |r.1| ==> AtSurface(r.1[i])
  {
    if es == [] then ([], [], [rng])
    else
      var t := EnemyTurn(es[0], rng, trig);
      var rest := EnemyTurns(es[1..], t.2, trig);
      var updated := [t.0] + rest.0;
      assert updated[0] == t.0 && updated[1..] == rest.0;
      assert es == [es[0]] + es[1..];
      TurnsCons(es[0], es[1..], rng, rest.0, rest.2);
      (updated, t.1 + rest.1, [rng] + rest.2)
  }

  /** The enemies kept after their update: those above the water that pass
      the screen test. As the test always passes, exactly those above the
      water, in order. */
  function KeepOnScreen(es: seq<Enemy>): (r: seq<Enemy>)
    requires InFront(es)
    ensures r == Filter(es, EnemyAboveWater)
  {
    if es == [] then []
    else
      var e := es[0];
      var rest := KeepOnScreen(es[1..]);
      OnScreenAlways(e);
      if e.y <= 0.0 && OnScreenAsWritten(e) then [e] + rest else rest
  }

  /** Advance every enemy in order (a Dizzy enemy may draw a coin); one that
      fell into the water leaves a burst of splashes and is removed, the
      others go through the screen test. */
  function UpdateEnemies(es: seq<Enemy>, rng: Rng, trig: Trig): (r: EnemyPass)
    requires InFront(es)
    ensures Turns(es, r.updated, r.gens)
    ensures r.gens[0] == rng && r.gens[|es|] == r.rng
    ensures r.kept == Filter(r.updated, EnemyAboveWater) && InFront(r.kept)
    ensures |r.splashes| == BurstSize * (|es| - |r.kept|)
    ensures forall i :: 0 <= i < |r.splashes| ==> AtSurface(r.splashes[i])
    ensures r.rng.source == rng.source
  {
    var t := EnemyTurns(es, rng, trig);
    FilterPartition(t.0, EnemyAboveWater, EnemyUnderWater);
    EnemyPass(t.0, KeepOnScreen(t.0), t.1, t.2, t.2[|es|])
  }

  // ---------------------------------------------------------------- the whole field

  /** Everything that moves during a round. */
  datatype Playfield = Playfield(bullets: seq<Bullet>, splashes: seq<Splash>,
                                 enemies: seq<Enemy>, gains: seq<GainEffect>)

  const EmptyField: Playfield := Playfield([], [], [], [])

  /** What is left after a Playing tick's pruning. */
  predicate Pruned(f: Playfield)
  {
    && (forall i :: 0 <= i < |f.bullets| ==> f.bullets[i].y <= 0.0)
    && (forall i :: 0 <= i < |f.splashes| ==> f.splashes[i].y <= SplashFloor)
    && (forall i :: 0 <= i < |f.enemies| ==> f.enemies[i].y <= 0.0)
    && (forall i :: 0 <= i < |f.gains| ==> f.gains[i].ticks < GainLifetime)
  }

  lemma SplashesConcat(a: seq<Splash>, b: seq<Splash>)
    requires forall i :: 0 <= i < |a| ==> a[i].y <= SplashFloor
    requires forall i :: 0 <= i < |b| ==> AtSurface(b[i])
    ensures forall i :: 0 <= i < |a + b| ==> (a + b)[i].y <= SplashFloor
  {
  }

  lemma GainsConcat(a: seq<GainEffect>, b: seq<GainEffect>)
    requires forall i :: 0 <= i < |a| ==> a[i].ticks < GainLifetime
    requires forall i :: 0 <= i < |b| ==> b[i].ticks == 0
    ensures forall i :: 0 <= i < |a + b| ==> (a + b)[i].ticks < GainLifetime
  {
  }

  lemma HitsKeepHeight(es: seq<Enemy>, es': seq<Enemy>)
    requires OnlyNewHits(es, es') && forall i :: 0 <= i < |es| ==> es[i].y <= 0.0
    ensures forall i :: 0 <= i < |es'| ==> es'[i].y <= 0.0
  {
    forall i | 0 <= i < |es'|
      ensures es'[i].y <= 0.0
    {
      assert es'[i] == es[i].(hit := es'[i].hit);
    }
  }

  /** The collision pass neither lifts what it is given nor brings back
      anything that left the water's surface. */
  lemma CollisionKeepsHeight(bs: seq<Bullet>, es: seq<Enemy>)
    requires InFront(es)
    requires forall i :: 0 <= i < |bs| ==> bs[i].y <= 0.0
    requires forall i :: 0 <= i < |es| ==> es[i].y <= 0.0
    ensures var c := Collide(bs, es);
      && (forall i :: 0 <= i < |c.bullets| ==> c.bullets[i].y <= 0.0)
      && (forall i :: 0 <= i < |c.enemies| ==> c.enemies[i].y <= 0.0)
  {
    var c := Collide(bs, es);
    HitsKeepHeight(es, c.enemies);
    forall i | 0 <= i < |c.bullets|
      ensures c.bullets[i].y <= 0.0
    {
      assert c.bullets[i] in bs;
    }
  }

  /** The field after the entity pass, the points scored, the generator,
      the enemies as they entered the collision pass and the gain effects
      the pass created. */
  datatype Advanced = Advanced(field: Playfield, points: nat, rng: Rng,
                               targets: seq<Enemy>, newGains: seq<GainEffect>)

  /** The entity part of a Playing tick: bullets, splashes, enemies and gain
      effects advanced and pruned in that order, then the collision pass
      over the surviving bullets and enemies. */
  function Advance(f: Playfield, rng: Rng, trig: Trig): (r: Advanced)
    requires InFront(f.enemies)
    ensures Pruned(r.field) && InFront(r.field.enemies)
    ensures var bp := UpdateBullets(f.bullets, rng, trig);
      var ep := UpdateEnemies(f.enemies, bp.rng, trig);
      var c := Collide(bp.kept, ep.kept);
      && r.targets == ep.kept && r.rng == ep.rng
      && r.field.splashes == UpdateSplashes(f.splashes + bp.splashes) + ep.splashes
      && r.field.bullets == c.bullets && r.field.enemies == c.enemies
      && r.points == c.points && r.newGains == c.gains
    ensures r.field.gains == UpdateGains(f.gains, trig) + r.newGains
    ensures OnlyNewHits(r.targets, r.field.enemies)
    ensures r.points == HitScore(r.field.enemies) - HitScore(r.targets) == GainTotal(r.newGains)
    ensures |r.newGains| == HitCount(r.field.enemies) - HitCount(r.targets)
    ensures r.rng.source == rng.source
  {
    var bp := UpdateBullets(f.bullets, rng, trig);
    var splashes := UpdateSplashes(f.splashes + bp.splashes);
    var ep := UpdateEnemies(f.enemies, bp.rng, trig);
    var gains := UpdateGains(f.gains, trig);
    var c := Collide(bp.kept, ep.kept);
    SplashesConcat(splashes, ep.splashes);
    GainsConcat(gains, c.gains);
    CollisionKeepsHeight(bp.kept, ep.kept);
    Advanced(Playfield(c.bullets, splashes + ep.splashes, c.enemies, gains + c.gains),
             c.points, ep.rng, ep.kept, c.gains)
  }

  /** A bullet that, after moving, overlaps no un-hit enemy entering the
      collision pass is still in play after the entity pass. */
  lemma AdvanceKeepsMisses(f: Playfield, rng: Rng, trig: Trig, i: nat)
    requires InFront(f.enemies)
    requires var kept := UpdateBullets(f.bullets, rng, trig).kept;
      var a := Advance(f, rng, trig);
      && i < |kept|
      && forall j :: 0 <= j < |a.targets| ==> !Hittable(a.targets[j], kept[i])
    ensures UpdateBullets(f.bullets, rng, trig).kept[i] in Advance(f, rng, trig).field.bullets
  {
    var a := Advance(f, rng, trig);
    MissesSurvive(UpdateBullets(f.bullets, rng, trig).kept, a.targets, i);
  }
}

=== FILE: projection.dfy ===
/** The fixed perspective camera shared by physics, hit tests and input
    mapping (main.go:63-73). Camera space has X to the right, Y down towards
    the water line and Z as depth; screen space is the 640x480 canvas. */
module Projection {

  const ScreenWidth: real := 640.0
  const ScreenHeight: real := 480.0
  /** Focal length; also the depth at which the fish sits. */
  const CameraF: real := 50.0
  const CameraHeight: real := 120.0

  /** Camera point to screen point. Only defined in front of the camera. */
  function ToScreen(x: real, y: real, z: real): (s: (real, real))
    requires z > 0.0
    ensures ToCamera(s.0, s.1, z) == (x, y)
  {
    var sx := x * CameraF / z;
    var sy := (y + CameraHeight) * CameraF / z;
    assert sx * z / CameraF == x;
    assert sy * z / CameraF - CameraHeight == y;
    var s := (sx + ScreenWidth / 2.0, sy + ScreenHeight / 2.0);
    assert (s.0 - ScreenWidth / 2.0) * z / CameraF == x;
    assert (s.1 - ScreenHeight / 2.0) * z / CameraF - CameraHeight == y;
    s
  }

  /** Screen point plus an assumed depth back to camera X and Y. */
  function ToCamera(sx: real, sy: real, z: real): (c: (real, real))
  {
    ((sx - ScreenWidth / 2.0) * z / CameraF,
     (sy - ScreenHeight / 2.0) * z / CameraF - CameraHeight)
  }

  /** The other direction of the round trip: un-projecting a screen point at
      depth z and projecting it again gives the same screen point. */
  lemma ScreenCameraRoundTrip(sx: real, sy: real, z: real)
    requires z > 0.0
    ensures var c := ToCamera(sx, sy, z); ToScreen(c.0, c.1, z) == (sx, sy)
  {
    var c := ToCamera(sx, sy, z);
    assert c.0 * CameraF / z == sx - ScreenWidth / 2.0;
    assert (c.1 + CameraHeight) * CameraF / z == sy - ScreenHeight / 2.0;
  }

  /** Screen position of a camera point that sits at the focal depth. */
  const FishScreenX: real := ToScreen(0.0, 0.0, CameraF).0
  const FishScreenY: real := ToScreen(0.0, 0.0, CameraF).1

  /** The fish (camera origin at focal depth) is drawn at (320, 360). */
  lemma FishScreenPosition()
    ensures FishScreenX == 320.0 && FishScreenY == 360.0
  {
  }
}

=== FILE: rules.dfy ===
/** What the mode machine promises, stated over `Archerfish.Step`. */
module Rules {

  import opened Oracles
  import opened Entities
  import opened Collision
  import opened Pipeline
  import opened Archerfish

  /** Every mode change starts the new mode's counter at zero; staying in a
      mode advances it by one. */
  lemma StepModeClock(g: Game, inp: Input, env: Env)
    requires InFront(g.field.enemies)
    ensures var r := Step(g, inp, env);
      r.ticksFromModeStart == (if r.mode != g.mode then 0 else g.ticksFromModeStart + 1)
  {
  }

  /** Title waits for a press and then starts the round, touching nothing
      else. */
  lemma TitleRule(g: Game, inp: Input, env: Env)
    requires InFront(g.field.enemies) && g.mode == Title
    ensures var r := Step(g, inp, env);
      && (r.mode == Title || r.mode == Playing)
      && (r.mode == Playing <==> inp.justTouched)
      && r.field == g.field && r.score == g.score && r.timeInTicks == g.timeInTicks
      && r == g.(mode := r.mode, ticksFromModeStart := r.ticksFromModeStart)
  {
  }

  /** Playing ends exactly when the round clock reaches its finish time;
      the clock does not run during the lead-in and never goes back; the
      score never drops; and the field is pruned. */
  lemma PlayingRule(g: Game, inp: Input, env: Env)
    requires InFront(g.field.enemies) && g.mode == Playing
    ensures var r := Step(g, inp, env);
      && (r.mode == Playing || r.mode == GameOver)
      && (r.mode == GameOver <==> r.timeInTicks >= FinishTimeInTicks)
      && (r.mode == GameOver ==> r.rankingRequested)
      && (g.ticksFromModeStart + 1 <= LeadInTicks ==> r.timeInTicks == g.timeInTicks)
      && g.timeInTicks <= r.timeInTicks <= g.timeInTicks + 1
      && r.score >= g.score
      && Pruned(r.field)
  {
  }

  /** GameOver ignores everything during the cool-down; a later press moves
      on to Ranking when the polled ranking is non-empty and restarts
      otherwise. */
  lemma GameOverRule(g: Game, inp: Input, env: Env)
    requires InFront(g.field.enemies) && g.mode == GameOver
    ensures var r := Step(g, inp, env);
      var leave := g.ticksFromModeStart + 1 > CooldownTicks && inp.justTouched;
      var ranking := Polled(g, env.poll);
      && (r.mode == GameOver <==> !leave)
      && (!leave ==> r == g.(ticksFromModeStart := g.ticksFromModeStart + 1))
      && (r.mode == Ranking <==> leave && |ranking| > 0)
      && (r.mode == Ranking ==> r.ranking == ranking && r.field == g.field && r.score == g.score)
      && (r.mode == Title <==> leave && |ranking| == 0)
      && (r.mode == Title ==> r == Initialize(env.reseed))
  {
  }

  /** Ranking restarts at once when the ranking is empty, otherwise on the
      first press after the cool-down. */
  lemma RankingRule(g: Game, inp: Input, env: Env)
    requires InFront(g.field.enemies) && g.mode == Ranking
    ensures var r := Step(g, inp, env);
      var leave := |g.ranking| == 0 || (g.ticksFromModeStart + 1 > CooldownTicks && inp.justTouched);
      && (r.mode == Title <==> leave)
      && (leave ==> r == Initialize(env.reseed))
      && (!leave ==> r == g.(ticksFromModeStart := g.ticksFromModeStart + 1))
  {
  }

  /** Within a round the score never decreases; only a restart resets it. */
  lemma ScoreNeverDecreases(g: Game, inp: Input, env: Env)
    requires InFront(g.field.enemies)
    ensures var r := Step(g, inp, env);
      || r.score >= g.score
      || ((g.mode == GameOver || g.mode == Ranking) && r == Initialize(env.reseed) && r.score == 0)
  {
  }

  /** In a Playing tick, the only enemies that change are those the
      collision pass newly hits, and the score rises by exactly their
      points. */
  lemma PlayingScoresHits(g: Game, inp: Input, trig: Trig)
    requires InFront(g.field.enemies) && g.mode == Playing
    ensures var p := TickPhases(g, inp, trig);
      var r := PlayingStep(g, inp, trig);
      && OnlyNewHits(p.advanced.targets, r.field.enemies)
      && r.score == g.score + HitScore(r.field.enemies) - HitScore(p.advanced.targets)
  {
  }

  /** The same, for a whole step from Playing. */
  lemma TickScoresHits(g: Game, inp: Input, env: Env)
    requires InFront(g.field.enemies) && g.mode == Playing
    ensures var t := Counted(g);
      var p := TickPhases(t, inp, env.trig);
      var r := Step(g, inp, env);
      && OnlyNewHits(p.advanced.targets, r.field.enemies)
      && r.score == g.score + HitScore(r.field.enemies) - HitScore(p.advanced.targets)
  {
    PlayingScoresHits(Counted(g), inp, env.trig);
  }

  /** A bullet that, after moving, overlaps no un-hit enemy entering the
      collision pass is still in play after the Playing tick. */
  lemma MissedBulletStays(g: Game, inp: Input, env: Env, b: Bullet)
    requires InFront(g.field.enemies) && g.mode == Playing
    requires var t := Counted(g);
      var p := TickPhases(t, inp, env.trig);
      && b in UpdateBullets(p.spawned.field.bullets, p.spawned.rng, env.trig).kept
      && forall j :: 0 <= j < |p.advanced.targets| ==> !Hittable(p.advanced.targets[j], b)
    ensures b in Step(g, inp, env).field.bullets
  {
    var t := Counted(g);
    var p := TickPhases(t, inp, env.trig);
    var kept := UpdateBullets(p.spawned.field.bullets, p.spawned.rng, env.trig).kept;
    var i :| 0 <= i < |kept| && kept[i] == b;
    AdvanceKeepsMisses(p.spawned.field, p.spawned.rng, env.trig, i);
  }

  /** A Playing tick keeps the reachable-state invariant. */
  lemma PlayingPreservesInv(g: Game, inp: Input, env: Env)
    requires Inv(g) && g.mode == Playing
    ensures Inv(Step(g, inp, env))
  {
    var r := Step(g, inp, env);
    PlayingRule(g, inp, env);
    if r.mode == Playing {
      assert r.ticksFromModeStart == g.ticksFromModeStart + 1;
    }
  }

  /** Every tick keeps the reachable-state invariant. */
  lemma StepPreservesInv(g: Game, inp: Input, env: Env)
    requires Inv(g)
    ensures Inv(Step(g, inp, env))
  {
    if g.mode == Playing {
      PlayingPreservesInv(g, inp, env);
    }
  }

  /** The round lasts the lead-in plus the finish time: Playing hands over
      to GameOver on exactly the 3780th tick of the mode. */
  lemma RoundLength(g: Game, inp: Input, env: Env)
    requires Inv(g) && g.mode == Playing
    ensures var r := Step(g, inp, env);
      r.mode == GameOver <==> g.ticksFromModeStart + 1 == LeadInTicks + FinishTimeInTicks
  {
    PlayingRule(g, inp, env);
  }

  /** The states reached from `g` by a sequence of ticks. */
  function Run(g: Game, ins: seq<Input>, envs: seq<Env>): (r: Game)
    requires Inv(g) && |ins| == |envs|
    ensures Inv(r)
    decreases |ins|
  {
    if ins == [] then g
    else
      StepPreservesInv(g, ins[0], envs[0]);
      Run(Step(g, ins[0], envs[0]), ins[1..], envs[1..])
  }

  /** No press and no release. */
  predicate Idle(inp: Input)
  {
    !inp.justTouched && !inp.justReleased
  }

  /** An idle Playing tick with no bullet in flight scores nothing and fires
      nothing. */
  lemma IdleTick(g: Game, inp: Input, trig: Trig)
    requires g.mode == Playing && InFront(g.field.enemies) && !g.hold && g.field.bullets == [] && Idle(inp)
    ensures var r := PlayingStep(g, inp, trig);
      r.score == g.score && !r.hold && r.field.bullets == []
  {
    var p := TickPhases(g, inp, trig);
    assert !Aiming(Clocked(g), inp);
    assert p.spawned.field.bullets == [] && p.spawned.score == g.score;
    IdleAdvance(p.spawned.field, p.spawned.rng, trig);
  }

  /** With no bullet in flight, the entity pass hits nothing and scores
      nothing. */
  lemma IdleAdvance(f: Playfield, rng: Rng, trig: Trig)
    requires InFront(f.enemies) && f.bullets == []
    ensures var a := Advance(f, rng, trig); a.points == 0 && a.field.bullets == []
  {
    assert UpdateBullets([], rng, trig).kept == [];
  }

  /** One idle tick of a round with no bullet in flight, everything the
      round needs from it. */
  lemma IdlePlayingTick(g: Game, inp: Input, env: Env)
    requires Inv(g) && g.mode == Playing && !g.hold && g.field.bullets == [] && Idle(inp)
    ensures var r := Step(g, inp, env);
      && Inv(r) && r.score == g.score
      && (r.mode == Playing || r.mode == GameOver)
      && (r.mode == GameOver <==> g.ticksFromModeStart + 1 == LeadInTicks + FinishTimeInTicks)
      && (r.mode == Playing ==>
            !r.hold && r.field.bullets == [] && r.ticksFromModeStart == g.ticksFromModeStart + 1)
  {
    StepPreservesInv(g, inp, env);
    IdleTick(Counted(g), inp, env.trig);
    RoundLength(g, inp, env);
    PlayingRule(g, inp, env);
    StepModeClock(g, inp, env);
  }

  /** A reachable Playing state with no aiming and no bullet in flight. */
  predicate IdleReady(g: Game)
  {
    Inv(g) && g.mode == Playing && !g.hold && g.field.bullets == []
  }

  /** The first tick of an idle run, and the run that follows it. */
  lemma IdleNext(g: Game, ins: seq<Input>, envs: seq<Env>) returns (r1: Game)
    requires IdleReady(g) && |ins| == |envs| && ins != [] && Idle(ins[0])
    ensures Inv(r1) && r1.score == g.score
    ensures r1.mode == Playing || r1.mode == GameOver
    ensures r1.mode == GameOver <==> g.ticksFromModeStart + 1 == LeadInTicks + FinishTimeInTicks
    ensures r1.mode == Playing ==> IdleReady(r1) && r1.ticksFromModeStart == g.ticksFromModeStart + 1
    ensures Run(g, ins, envs) == Run(r1, ins[1..], envs[1..])
  {
    r1 := Step(g, ins[0], envs[0]);
    IdlePlayingTick(g, ins[0], envs[0]);
  }

  /** How an idle stretch of `n` ticks from `g` ends in `r`. */
  predicate IdleOutcome(g: Game, n: nat, r: Game)
  {
    && r.score == g.score
    && (r.mode == Playing || r.mode == GameOver)
    && (r.mode == GameOver <==> g.ticksFromModeStart + n == LeadInTicks + FinishTimeInTicks)
  }

  /** The inputs after an idle one are still idle. */
  lemma IdleTail(ins: seq<Input>)
    requires ins != [] && forall i :: 0 <= i < |ins| ==> Idle(ins[i])
    ensures forall i :: 0 <= i < |ins[1..]| ==> Idle(ins[1..][i])
  {
  }

  /** A round in which the player never touches the screen ends in GameOver
      with the score it started with, exactly when the round time runs out. */
  lemma {:induction false} IdleRound(g: Game, ins: seq<Input>, envs: seq<Env>)
    requires IdleReady(g)
    requires |ins| == |envs| && forall i :: 0 <= i < |ins| ==> Idle(ins[i])
    requires g.ticksFromModeStart + |ins| <= LeadInTicks + FinishTimeInTicks
    ensures IdleOutcome(g, |ins|, Run(g, ins, envs))
    decreases |ins|, 1
  {
    if ins != [] {
      var r1 := IdleNext(g, ins, envs);
      IdleTail(ins);
      IdleRest(g, r1, ins[1..], envs[1..]);
    }
  }

  /** The rest of an idle round, given the game `r1` its first tick led to
      and the inputs `ins` after that tick. */
  lemma {:induction false} IdleRest(g: Game, r1: Game, ins: seq<Input>, envs: seq<Env>)
    requires |ins| == |envs| && forall i :: 0 <= i < |ins| ==> Idle(ins[i])
    requires g.ticksFromModeStart + 1 + |ins| <= LeadInTicks + FinishTimeInTicks
    requires Inv(r1) && r1.score == g.score
    requires r1.mode == Playing || r1.mode == GameOver
    requires r1.mode == GameOver <==> g.ticksFromModeStart + 1 == LeadInTicks + FinishTimeInTicks
    requires r1.mode == Playing ==> IdleReady(r1) && r1.ticksFromModeStart == g.ticksFromModeStart + 1
    ensures IdleOutcome(g, |ins| + 1, Run(r1, ins, envs))
    decreases |ins| + 1, 0
  {
    if r1.mode == Playing {
      IdleRound(r1, ins, envs);
    }
  }
}

=== FILE: seqs.dfy ===
/** Order-preserving filtering of sequences, the shape of every
    `newXs = append(newXs, x)` pruning loop of the game. */
module Seqs {

  /** `f` applied to every element of `s`. */
  function Map<A, B(!new)>(s: seq<A>, f: A -> B): (r: seq<B>)
    ensures |r| == |s| && forall i :: 0 <= i < |s| ==> r[i] == f(s[i])
    ensures forall y :: y in r <==> exists i :: 0 <= i < |s| && y == f(s[i])
  {
    var r := seq(|s|, i requires 0 <= i < |s| => f(s[i]));
    assert forall y :: y in r ==> exists i :: 0 <= i < |s| && y == f(s[i]) by {
      forall y | y in r
        ensures exists i :: 0 <= i < |s| && y == f(s[i])
      {
        var i :| 0 <= i < |r| && r[i] == y;
      }
    }
    r
  }

  /** The elements of `s` that satisfy `keep`, in their original order. */
  function Filter<T(!new)>(s: seq<T>, keep: T -> bool): (r: seq<T>)
    ensures |r| <= |s|
    ensures forall x :: x in r <==> x in s && keep(x)
    ensures forall i :: 0 <= i < |r| ==> keep(r[i])
  {
    if s == [] then []
    else if keep(s[0]) then [s[0]] + Filter(s[1..], keep)
    else Filter(s[1..], keep)
  }

  /** Filtering keeps the original order: it distributes over
      concatenation, and a single element is kept exactly when it passes. */
  lemma {:induction false} FilterConcat<T(!new)>(a: seq<T>, b: seq<T>, keep: T -> bool)
    ensures Filter(a + b, keep) == Filter(a, keep) + Filter(b, keep)
    ensures forall x :: Filter([x], keep) == (if keep(x) then [x] else [])
  {
    if a == [] {
      assert a + b == b;
    } else {
      assert (a + b)[0] == a[0] && (a + b)[1..] == a[1..] + b;
      FilterConcat(a[1..], b, keep);
    }
  }

  /** Every element goes to exactly one side of a filter and its complement. */
  lemma {:induction false} FilterPartition<T(!new)>(s: seq<T>, keep: T -> bool, drop: T -> bool)
    requires forall x :: drop(x) == !keep(x)
    ensures |Filter(s, keep)| + |Filter(s, drop)| == |s|
  {
    if s != [] {
      FilterPartition(s[1..], keep, drop);
    }
  }
}

=== FILE: spawner.dfy ===
/** Enemies entering the scaffold every 60 ticks (main.go:496-558). */
module Spawner {

  import opened Oracles
  import opened Projection
  import opened Entities

  /** Depth of the scaffold the enemies walk on. */
  const EnemyZ: real := 200.0
  /** Screen heights of the three lanes, top of the water downwards. */
  const NormalLaneY: real := ScreenHeight / 2.0 - 50.0
  const DizzyLaneY: real := NormalLaneY - 70.0
  const ShyLaneY: real := DizzyLaneY - 70.0
  /** Screen x at which an enemy enters from the left or the right. */
  const EntryLeft: real := -50.0
  const EntryRight: real := ScreenWidth + 50.0

  /** One row of the spawn table: kind, chance per beat, walking speed. */
  datatype Appearance = Appearance(kind: EnemyKind, probability: real, speed: real)

  const Appearances: seq<Appearance> :=
    [Appearance(Normal, 0.25, 2.0), Appearance(Dizzy, 0.20, 4.0), Appearance(Shy, 0.10, 4.0)]

  function LaneY(kind: EnemyKind): real
  {
    match kind
    case Normal => NormalLaneY
    case Dizzy => DizzyLaneY
    case Shy => ShyLaneY
  }

  function Radius(kind: EnemyKind): real
  {
    match kind
    case Normal => 40.0
    case Dizzy => 35.0
    case Shy => 30.0
  }

  /** A just-spawned enemy: not yet updated, not hit, on the scaffold above
      the water, and walking towards the middle of the screen. */
  predicate Entering(e: Enemy)
  {
    && e.ticks == 0 && !e.hit && e.z == EnemyZ && e.vy == 0.0 && e.y < 0.0
    && (e.x < 0.0 ==> e.vx > 0.0) && (e.x > 0.0 ==> e.vx < 0.0)
  }

  /** Position of a kind in the spawn table. */
  function KindRank(kind: EnemyKind): nat
  {
    match kind
    case Normal => 0
    case Dizzy => 1
    case Shy => 2
  }

  /** The table lists each kind at most once, in rank order. */
  predicate RowsInOrder(table: seq<Appearance>)
  {
    forall i, j :: 0 <= i < j < |table| ==> KindRank(table[i].kind) < KindRank(table[j].kind)
  }

  /** An enemy made by a table row: the row's kind, walking at its speed. */
  predicate MadeBy(e: Enemy, a: Appearance)
  {
    e.kind == a.kind && (e.vx == a.speed || e.vx == -a.speed)
  }

  /** The enemy entering at the left or right edge of its kind's lane. */
  function NewEnemy(kind: EnemyKind, speed: real, fromLeft: bool): (e: Enemy)
    requires speed > 0.0
    ensures Entering(e) && e.kind == kind && e.r == Radius(kind)
    ensures ToScreen(e.x, e.y, e.z) == (if fromLeft then EntryLeft else EntryRight, LaneY(kind))
    ensures e.vx == (if fromLeft then speed else -speed)
  {
    var sx := if fromLeft then EntryLeft else EntryRight;
    var c := ToCamera(sx, LaneY(kind), EnemyZ);
    ScreenCameraRoundTrip(sx, LaneY(kind), EnemyZ);
    var vx := if sx > 0.0 then -speed else speed;
    Enemy(0, kind, false, c.0, c.1, EnemyZ, vx, 0.0, 0.0, Radius(kind))
  }

  /** One table row: a uniform draw below the row's probability spawns an
      enemy, and then a second draw picks the side it enters from. */
  function TrySpawn(a: Appearance, es: seq<Enemy>, rng: Rng): (res: (seq<Enemy>, Rng))
    requires a.speed > 0.0
    ensures |res.0| == |es| + 1 <==> NextFloat(rng).0 < a.probability
    ensures |es| <= |res.0| <= |es| + 1 && res.0[..|es|] == es
    ensures |res.0| == |es| + 1 ==> Entering(res.0[|es|]) && MadeBy(res.0[|es|], a)
    ensures |res.0| == |es| + 1 ==>
      res.0[|es|] == NewEnemy(a.kind, a.speed, NextInt(Skip(rng, 1)).0 % 2 == 0)
    ensures res.1 == Skip(rng, 1 + |res.0| - |es|)
  {
    var (u, r1) := NextFloat(rng);
    if u < a.probability then
      var (side, r2) := NextInt(r1);
      (es + [NewEnemy(a.kind, a.speed, side % 2 == 0)], r2)
    else
      (es, r1)
  }

  /** What the first row and the rest of the table together spawned:
      enemies of the rest come from rows one place further on, so they rank
      after the first row's enemy. */
  lemma SpawnAllStep(table: seq<Appearance>, es: seq<Enemy>, es1: seq<Enemy>, es2: seq<Enemy>)
    requires table != [] && |es| <= |es1| <= |es| + 1 && |es1| <= |es2|
    requires es2[..|es1|] == es1
    requires |es1| == |es| + 1 ==> MadeBy(es1[|es|], table[0])
    requires forall i :: |es1| <= i < |es2| ==>
      exists p :: 0 <= p < |table[1..]| && MadeBy(es2[i], table[1..][p])
    requires RowsInOrder(table[1..]) ==>
      forall i, j :: |es1| <= i < j < |es2| ==> KindRank(es2[i].kind) < KindRank(es2[j].kind)
    ensures forall i :: |es| <= i < |es2| ==> exists p :: 0 <= p < |table| && MadeBy(es2[i], table[p])
    ensures RowsInOrder(table) ==>
      forall i, j :: |es| <= i < j < |es2| ==> KindRank(es2[i].kind) < KindRank(es2[j].kind)
  {
    forall i | |es1| <= i < |es2|
      ensures exists p :: 1 <= p < |table| && MadeBy(es2[i], table[p])
    {
      var p :| 0 <= p < |table[1..]| && MadeBy(es2[i], table[1..][p]);
      assert table[1..][p] == table[p + 1];
    }
    if |es1| == |es| + 1 {
      assert es2[|es|] == es1[|es|] by {
        assert es2[..|es1|][|es|] == es1[|es|];
      }
    }
  }

  /** Row `k` of the table ran on `stages[k]`, the enemies so far and the
      generator, and left `stages[k + 1]`. */
  ghost predicate RowByRow(table: seq<Appearance>, stages: seq<(seq<Enemy>, Rng)>)
    requires forall i :: 0 <= i < |table| ==> table[i].speed > 0.0
  {
    && |stages| == |table| + 1
    && forall k :: 0 <= k < |table| ==> stages[k + 1] == TrySpawn(table[k], stages[k].0, stages[k].1)
  }

  /** The row-by-row description survives putting one more row in front. */
  lemma RowByRowCons(table: seq<Appearance>, stages: seq<(seq<Enemy>, Rng)>,
                     es: seq<Enemy>, rng: Rng)
    requires table != [] && forall i :: 0 <= i < |table| ==> table[i].speed > 0.0
    requires RowByRow(table[1..], stages) && stages[0] == TrySpawn(table[0], es, rng)
    ensures RowByRow(table, [(es, rng)] + stages)
  {
    var all := [(es, rng)] + stages;
    forall k | 0 <= k < |table|
      ensures all[k + 1] == TrySpawn(table[k], all[k].0, all[k].1)
    {
      if k > 0 {
        assert table[k] == table[1..][k - 1] && all[k] == stages[k - 1] && all[k + 1] == stages[k];
      }
    }
  }

  /** The rows of a table in order, each drawing from the generator left
      by the previous one; `res.2` lists what each row started from. */
  function SpawnAll(table: seq<Appearance>, es: seq<Enemy>, rng: Rng)
    : (res: (seq<Enemy>, Rng, seq<(seq<Enemy>, Rng)>))
    requires forall i :: 0 <= i < |table| ==> table[i].speed > 0.0
    ensures RowByRow(table, res.2) && res.2[0] == (es, rng) && res.2[|table|] == (res.0, res.1)
    ensures |es| <= |res.0| <= |es| + |table| && res.0[..|es|] == es
    ensures forall i :: |es| <= i < |res.0| ==> Entering(res.0[i])
    ensures forall i :: |es| <= i < |res.0| ==>
      exists p :: 0 <= p < |table| && MadeBy(res.0[i], table[p])
    ensures RowsInOrder(table) ==>
      forall i, j :: |es| <= i < j < |res.0| ==> KindRank(res.0[i].kind) < KindRank(res.0[j].kind)
    ensures res.1 == Skip(rng, |table| + |res.0| - |es|)
  {
    if table == [] then (es, rng, [(es, rng)])
    else
      var (es1, r1) := TrySpawn(table[0], es, rng);
      var (es2, r2, stages) := SpawnAll(table[1..], es1, r1);
      assert es2[..|es|] == es1[..|es1|][..|es|];
      SpawnAllStep(table, es, es1, es2);
      RowByRowCons(table, stages, es, rng);
      (es2, r2, [(es, rng)] + stages)
  }

  /** The spawn beat: existing enemies untouched, up to one new enemy per
      kind appended, three draws plus one per spawned enemy. */
  function Spawn(es: seq<Enemy>, rng: Rng): (res: (seq<Enemy>, Rng, seq<(seq<Enemy>, Rng)>))
    ensures RowByRow(Appearances, res.2) && res.2[0] == (es, rng) && res.2[3] == (res.0, res.1)
    ensures |es| <= |res.0| <= |es| + 3 && res.0[..|es|] == es
    ensures forall i :: |es| <= i < |res.0| ==> Entering(res.0[i])
    ensures forall i :: |es| <= i < |res.0| ==>
      exists p :: 0 <= p < |Appearances| && MadeBy(res.0[i], Appearances[p])
    ensures forall i, j :: |es| <= i < j < |res.0| ==> KindRank(res.0[i].kind) < KindRank(res.0[j].kind)
    ensures res.1 == Skip(rng, 3 + |res.0| - |es|)
  {
    SpawnAll(Appearances, es, rng)
  }

  /** On the spawn beat, row `k` appends an enemy exactly when its uniform
      draw is below the row's probability; the enemy has the row's kind and
      speed and enters from the left exactly when the next draw is even. */
  lemma SpawnRow(es: seq<Enemy>, rng: Rng, k: nat)
    requires k < |Appearances|
    ensures var st := Spawn(es, rng).2;
      var before := st[k];
      var after := st[k + 1];
      var a := Appearances[k];
      && after.0[..|before.0|] == before.0
      && (|after.0| == |before.0| + 1 <==> NextFloat(before.1).0 < a.probability)
      && (|after.0| == |before.0| + 1 ==>
            after.0[|before.0|] == NewEnemy(a.kind, a.speed, NextInt(Skip(before.1, 1)).0 % 2 == 0))
      && (|after.0| == |before.0| ==> after.1 == Skip(before.1, 1))
  {
  }
}

=== FILE: timelines.dfy ===
/** Closed forms for entities left alone for `n` ticks: what the one-tick
    rules of the Entities module add up to over a lifetime. */
module Timelines {

  import opened Oracles
  import opened Entities

  /** Distance fallen in `n` semi-implicit Euler steps from velocity `vy`. */
  function FallDistance(vy: real, n: nat): real
  {
    (n as real) * vy + Gravity * (n as real) * ((n as real) + 1.0) / 2.0
  }

  lemma FallDistanceStep(vy: real, n: nat)
    requires n > 0
    ensures FallDistance(vy, n) == FallDistance(vy, n - 1) + (vy + (n as real) * Gravity)
  {
    var m := (n - 1) as real;
    assert (n as real) == m + 1.0;
    assert Gravity * (m + 1.0) * (m + 2.0) / 2.0 == Gravity * m * (m + 1.0) / 2.0 + (m + 1.0) * Gravity;
  }

  // ---------------------------------------------------------------- bullets

  function BulletRun(b: Bullet, n: nat): Bullet
  {
    if n == 0 then b else UpdateBullet(BulletRun(b, n - 1))
  }

  /** After `n` ticks a bullet has moved uniformly in x and z and along a
      parabola in y. */
  lemma {:induction false} BulletClosedForm(b: Bullet, n: nat)
    ensures var b' := BulletRun(b, n);
      && b'.ticks == b.ticks + n && b'.r == b.r
      && b'.vx == b.vx && b'.x == b.x + (n as real) * b.vx
      && b'.vz == b.vz && b'.z == b.z + (n as real) * b.vz
      && b'.vy == b.vy + (n as real) * Gravity
      && b'.y == b.y + FallDistance(b.vy, n)
  {
    if n > 0 {
      BulletClosedForm(b, n - 1);
      FallDistanceStep(b.vy, n);
    }
  }

  /** A bullet with positive depth velocity is strictly deeper every tick. */
  lemma {:induction false} BulletDepthIncreases(b: Bullet, m: nat, n: nat)
    requires b.vz > 0.0 && m < n
    ensures BulletRun(b, m).z < BulletRun(b, n).z
    decreases n - m
  {
    var b' := BulletRun(b, n - 1);
    assert BulletRun(b, n).z == b'.z + b'.vz;
    BulletClosedForm(b, n - 1);
    if m < n - 1 {
      BulletDepthIncreases(b, m, n - 1);
    }
  }

  // ---------------------------------------------------------------- splashes

  /** `n` updates of a splash. */
  function SplashRun(s: Splash, n: nat): Splash
  {
    if n == 0 then s else UpdateSplash(SplashRun(s, n - 1))
  }

  /** After `n` ticks a splash has drifted uniformly in x, fallen along a
      parabola in y, and stayed at its depth. */
  lemma {:induction false} SplashClosedForm(s: Splash, n: nat)
    ensures var s' := SplashRun(s, n);
      && s'.ticks == s.ticks + n && s'.z == s.z
      && s'.vx == s.vx && s'.x == s.x + (n as real) * s.vx
      && s'.vy == s.vy + (n as real) * Gravity
      && s'.y == s.y + FallDistance(s.vy, n)
  {
    if n > 0 {
      SplashClosedForm(s, n - 1);
      FallDistanceStep(s.vy, n);
    }
  }

  // ---------------------------------------------------------------- enemies

  /** `n` enemy updates, threading the generator. */
  function EnemyRun(e: Enemy, rng: Rng, n: nat): (res: (Enemy, Rng))
    ensures res.0.ticks == e.ticks + n && res.0.kind == e.kind && res.0.hit == e.hit
    ensures res.0.z == e.z && res.0.r == e.r && res.1.source == rng.source
  {
    if n == 0 then (e, rng)
    else
      var prev := EnemyRun(e, rng, n - 1);
      UpdateEnemy(prev.0, prev.1)
  }

  /** A hit enemy keeps its x and falls straight down. */
  lemma {:induction false} HitEnemyFalls(e: Enemy, rng: Rng, n: nat)
    requires e.hit
    ensures var res := EnemyRun(e, rng, n); var e' := res.0; var rng' := res.1;
      && e'.hit && rng' == rng && e'.x == e.x && e'.vx == e.vx
      && e'.vy == e.vy + (n as real) * Gravity
      && e'.y == e.y + FallDistance(e.vy, n)
  {
    if n > 0 {
      HitEnemyFalls(e, rng, n - 1);
      FallDistanceStep(e.vy, n);
    }
  }

  /** A Normal enemy keeps its spawn velocity. */
  lemma {:induction false} NormalTimeline(e: Enemy, rng: Rng, n: nat)
    requires e.kind == Normal && !e.hit
    ensures var res := EnemyRun(e, rng, n); var e' := res.0; var rng' := res.1;
      && !e'.hit && rng' == rng && e'.y == e.y
      && e'.vx == e.vx && e'.x == e.x + (n as real) * e.vx
  {
    if n > 0 {
      NormalTimeline(e, rng, n - 1);
    }
  }

  /** Velocity of a Shy enemy after `n` ticks, from spawn velocity `v`. */
  function ShyVelocity(v: real, n: nat): real
  {
    if n < 120 then v else if n < 240 then 0.0 else -v
  }

  /** Distance walked by a Shy enemy in its first `n` ticks. */
  function ShyDisplacement(v: real, n: nat): real
  {
    if n < 120 then (n as real) * v
    else if n < 240 then 119.0 * v
    else 119.0 * v - ((n - 239) as real) * v
  }

  /** A Shy enemy walks at its spawn velocity for ticks 1-119, stands still
      for ticks 120-239 and walks back from tick 240 on; it never reads the
      generator. */
  lemma {:induction false} ShyTimeline(e: Enemy, rng: Rng, n: nat)
    requires e.kind == Shy && !e.hit && e.ticks == 0
    ensures var res := EnemyRun(e, rng, n); var e' := res.0; var rng' := res.1;
      && !e'.hit && rng' == rng && e'.y == e.y && e'.ticks == n
      && (n > 0 ==> e'.vx0 == e.vx)
      && e'.vx == ShyVelocity(e.vx, n)
      && e'.x == e.x + ShyDisplacement(e.vx, n)
  {
    if n > 0 {
      ShyTimeline(e, rng, n - 1);
      var prev := EnemyRun(e, rng, n - 1);
      var e1 := prev.0;
      if n == 1 {
        assert e1 == e;
      }
      if 240 < n {
        assert ((n - 239) as real) * e.vx == ((n - 1 - 239) as real) * e.vx + e.vx;
      }
    }
  }

  /** One Dizzy tick: the velocity changes only on a 60-tick beat whose coin
      is even, and then it toggles between standing and the home velocity. */
  lemma DizzyStep(e: Enemy, rng: Rng)
    requires e.kind == Dizzy && !e.hit
    ensures var e' := UpdateEnemy(e, rng).0;
      var toss := e'.ticks % 60 == 0 && rng.source(rng.pos) % 2 == 0;
      && (e'.vx != e.vx ==> toss)
      && (toss ==> e'.vx == (if e.vx == 0.0 then e'.vx0 else 0.0))
      && ((e.vx == 0.0 || e.vx == e'.vx0) ==> (e'.vx == 0.0 || e'.vx == e'.vx0))
  {
  }

  /** A Dizzy enemy is always either standing or at its spawn velocity, and
      it has drawn exactly one coin per elapsed 60-tick beat. */
  lemma {:induction false} DizzyTimeline(e: Enemy, rng: Rng, n: nat)
    requires e.kind == Dizzy && !e.hit && e.ticks == 0
    ensures var res := EnemyRun(e, rng, n); var e' := res.0; var rng' := res.1;
      && !e'.hit && e'.y == e.y && e'.ticks == n
      && (n > 0 ==> e'.vx0 == e.vx)
      && (e'.vx == 0.0 || e'.vx == e.vx)
      && rng'.source == rng.source && rng'.pos == rng.pos + n / 60
  {
    if n > 0 {
      DizzyTimeline(e, rng, n - 1);
      var prev := EnemyRun(e, rng, n - 1);
      var e1, r1 := prev.0, prev.1;
      DizzyStep(e1, r1);
      if n == 1 {
        assert e1 == e;
      }
      assert n / 60 == (n - 1) / 60 + (if n % 60 == 0 then 1 else 0);
    }
  }

  // ---------------------------------------------------------------- gain effects

  function GainRun(g: GainEffect, trig: Trig, n: nat): GainEffect
  {
    if n == 0 then g else UpdateGain(GainRun(g, trig, n - 1), trig)
  }

  /** A fresh gain effect follows the arc y - 30 sin(pi n / 60) around the
      height it was created at, and its age is the number of updates. */
  lemma {:induction false} GainArcTimeline(g: GainEffect, trig: Trig, n: nat)
    requires g.ticks == 0 && n > 0
    ensures var g' := GainRun(g, trig, n);
      && g'.ticks == n && g'.y0 == g.y && g'.x == g.x && g'.score == g.score
      && g'.y == g.y - GainArc * trig.sinPi((n as real) / 60.0)
  {
    if n > 1 {
      GainArcTimeline(g, trig, n - 1);
    }
  }
}

=== FILE: wrappers.dfy ===
/** Optional values, used for the non-blocking ranking poll and for
    "which enemy did this bullet hit". */
module Wrappers {

  datatype Option<+T> = None | Some(value: T)
}
